=== FILE: README.md ===
# Multiplication quiz bot — a verified model of its core

The bot is a Telegram quiz that asks multiplication questions: plain
products at three levels, a pinned operand, weak-spot drills, lightning,
sniper and training modes, and "find x" equations. This project models its
core in Dafny and proves properties of the model. The core covers:

- how an answer is judged: right, a typo (off by one, or one edit away from
  a number of two or more characters), or wrong;
- the hint after a wrong product;
- how questions and equations are generated from their random draws;
- the database updates: user counters, the weak-spot table, the activity
  calendar and the answer history;
- the weak-spot ranking and the assistant's analysis;
- the tier of the motivational message;
- the quiz session, where a question can be resolved by the user's answer
  or by its timer.

The modules follow the program's structure:

- `Levenshtein`: the edit distance as a recursive reference definition, and
  the row-by-row loop of the bot as a method proved equal to it.
- `Decimal`: `str(int)` and `int(text.strip())` on ASCII decimal text.
- `Evaluator`: the typo tolerance and the hint of `explain_mistake`.
- `Questions`: `generate_question` and `generate_find_x_question`, with the
  random draws as parameters.
- `Store`: the tables as a class with one field per table. Each SQL
  statement is a method, specified by a function on the old table.
- `WeakSpots`: `get_weak_spots` as a ranking of the user's rows.
- `Advisor`: `analyze_mistakes` and the tier choice of `get_motivational_message`.
- `Session`: the session of one chat as a class. The answer handler comes
  in two versions, as the bot has it and corrected (see Findings).
- `Scenarios`: concrete runs of a session, where the answer and the timer
  meet in different orders.

Clocks, dates and random draws are parameters throughout. Times are whole
seconds.

## Model

| member | source | states |
|---|---|---|
| Levenshtein.LevenshteinDistance | main.py:632-649 | the loop returns exactly the edit distance `Dist` of the two strings |
| Levenshtein.NextRow | main.py:641-646 | one pass of the inner loop fills row i+1 of the table: entry j is the distance between the first i+1 characters of s1 and the first j of s2 |
| Levenshtein.DistSymmetric | main.py:634-635 | the distance is symmetric, which is what makes swapping the arguments when s1 is shorter harmless |
| Levenshtein.DistSelf | main.py:632-649 | a string is at distance 0 from itself |
| Levenshtein.DistZeroIff | main.py:632-649 | distance 0 holds exactly for equal strings |
| Levenshtein.DistUpperBound | main.py:636-638 | the distance to the empty string is the length, and no distance exceeds the longer length |
| Levenshtein.DistLowerBound | main.py:632-649 | the distance is at least the difference of the lengths |
| Levenshtein.DistConsOne | main.py:632-649 | adding one character in front is one edit |
| Levenshtein.DistSubstitution | main.py:632-649 | replacing one character is at most one edit |
| Decimal.ParseIntBare | main.py:1964-1968 | parsing the decimal text of any integer gives that integer back |
| Decimal.ParseIntStr | main.py:1964-1968 | parsing the decimal text of any integer, bare or with any white space before and after it, gives that integer back |
| Decimal.IntStrInjective | main.py:2015-2016 | two integers have the same decimal text exactly when they are equal |
| Decimal.IntStrLength | main.py:2015 | the text has at least two characters exactly when the number is negative or at least 10 |
| Decimal.NatStrDigits | main.py:2015-2016 | the text of a natural number is a non-empty run of digits that reads back as the number, with no leading zero unless it is 0 |
| Decimal.IntStrNegate | main.py:2015-2016 | the text of a negative number is a minus sign before the text of its magnitude |
| Decimal.StripLeft | main.py:1965 | the result is a suffix of the input, every character dropped in front of it is white space, and it does not start with white space |
| Decimal.StripRight | main.py:1965 | the result is a prefix of the input, every character dropped after it is white space, and it does not end with white space |
| Decimal.StripLeftSpaces | main.py:1965 | white space in front of a text that starts with something else is exactly what `lstrip()` removes |
| Decimal.StripRightSpaces | main.py:1965 | white space after a text that ends with something else is exactly what `rstrip()` removes |
| Decimal.StripAround | main.py:1965 | `strip()` of a text with any white space before and after it gives the text back, when the text starts and ends with something else |
| Decimal.IntStrEnds | main.py:1965 | the rendering of a number starts and ends with something other than white space |
| Decimal.StripFixed | main.py:1965 | stripping a text that starts and ends with non-spaces leaves it as it is |
| Evaluator.Judge | main.py:2011-2019 | the typo check returns exactly the verdict of the reference `Classify` |
| Evaluator.ClassifyCorrectIff | main.py:1978 | the verdict is "right" exactly when the answer equals the correct one |
| Evaluator.ClassifyTypoIff | main.py:2011-2019 | the verdict is "typo" exactly when the answer is wrong and either off by one, or the correct text has two or more characters and the texts are one edit apart |
| Evaluator.OffByOneIsTypo | main.py:2013-2014 | an answer one above or one below is always a typo |
| Evaluator.SingleDigitOnlyNeighbours | main.py:2013-2015 | for a correct answer from 0 to 9, a typo is exactly an answer off by one |
| Evaluator.OneDigitChangedIsTypo | main.py:2015-2018 | for a correct answer of two or more characters, changing one character of its text never gives a wrong verdict |
| Evaluator.SignFlip | main.py:2013-2018 | answering -c for c is a typo exactly when c is not between 1 and 9 |
| Evaluator.LengthGapIsMistake | main.py:2015-2018 | an answer whose text is two or more characters longer or shorter, and not off by one, is wrong |
| Evaluator.TypoExamples | main.py:2011-2019 | 41 and 52 for 42 are typos |
| Evaluator.MistakeExamples | main.py:2011-2019 | 24 for 42 and 7 for 4 are wrong |
| Evaluator.ConfusionHint | main.py:613-625 | a hint naming "num1 × k" is given only when the answer is num1·k with k ≠ num2, and a hint naming "k × num2" only when it is k·num2 with k ≠ num1 |
| Evaluator.HintSecondFactorComplete | main.py:613-619 | for non-zero factors, every answer num1·k with k ≠ num2 and k in 1..10 gets the first hint |
| Evaluator.HintFirstFactorComplete | main.py:620-625 | every answer k·num2 that is not a multiple of num1, with k ≠ num1 and k in 1..100, gets the second hint |
| Evaluator.HintNoFallThrough | main.py:613-629 | a non-zero multiple of num1 whose quotient is num2 or outside 1..10 gets no hint, even when it is a multiple of num2 |
| Evaluator.HintZeroAnswer | main.py:613-629 | the answer 0 never gets a hint |
| Evaluator.HintExamples | main.py:613-629 | for 6 × 7: 24 and 60 get the first hint, 66 none, 35 the second; for 2 × 7, 28 gets none |
| Questions.GenerateQuestion | main.py:497-515 | the question lies in its level's range (or uses the pinned number), its answer is the product, and neither operand is 0 |
| Questions.GenerateQuestionCovers | main.py:497-515 | every pair of the level's range can be drawn |
| Questions.GenerateFindX | main.py:518-597 | the equation is well formed (x solves it, the multiplier is the magnitude of the coefficient, at least 2), and x lies in the level's range |
| Questions.FindXLevel1 | main.py:522-534 | a level-1 equation a·x = b or x·a = b is solved by the drawn x |
| Questions.FindXLevel2 | main.py:536-571 | every shape of level 2 is solved by x, with x in -10..10 and never 0 |
| Questions.FindXLevel3 | main.py:573-595 | both shapes of level 3 are solved by x, with x in -20..20 and never 0 |
| Questions.FindXUnique | main.py:518-597 | the generated x is the only solution of the generated equation |
| Questions.ExplanationQuotient | main.py:534-595 | the number shown after moving the constant across divides exactly by the shown divisor, and the quotient is x |
| Store.NewProfile | main.py:125-141 | a new user row has every counter at zero and is consistent |
| Store.RecordedKeepsCounters | main.py:144-174 | one answer keeps right + wrong = total and streak ≤ best ≤ right answers; a right answer raises the streak by one and never lowers the best; a wrong one zeroes the streak and keeps the best |
| Store.RecordAnswerKeepsUsers | main.py:144-174 | every row stays consistent, no row appears or disappears, and only the answering user's row moves |
| Store.TrackMissFrame | main.py:272-282 | a miss adds or updates the missed pair's key and no other |
| Store.TrackMissesCount | main.py:272-282 | n misses on a new pair give it count n and the last miss's time, and leave the swapped pair alone |
| Store.BumpTimesCount | main.py:257-268 | n updates on a date add n to that date's count and leave every other date as it was |
| Store.Store.constructor | main.py:78-87 | the database starts with the four tables empty; the tables are created outside this file (their schema is not part of this model), and the history rows carry the `mode` column added here |
| Store.Store.GetOrCreateUser | main.py:125-141 | a user without a row gets a zeroed one, and an existing row is kept; the other tables are unchanged |
| Store.Store.UpdateUserStats | main.py:144-174 | the users table becomes `RecordAnswer` of the old one; the other tables are unchanged |
| Store.Store.TrackWeakSpot | main.py:272-282 | the weak-spot table becomes `TrackMiss` of the old one; the other tables are unchanged |
| Store.Store.UpdateActivityCalendar | main.py:257-268 | the calendar becomes `Bump` of the old one; the other tables are unchanged |
| Store.Store.SaveAnswerHistory | main.py:241-254 | the history grows by exactly the new row; the other tables are unchanged |
| WeakSpots.BeforeOrder | main.py:289-293 | the ranking order is a strict total order |
| WeakSpots.Ranked | main.py:289-293 | the ranked list holds each of the user's rows exactly once, sorted |
| WeakSpots.RowsOfIff | main.py:289-292 | a row is the user's exactly when the table holds its pair with its count and time |
| WeakSpots.GetWeakSpots | main.py:285-296 | the result has min(limit, number of the user's rows) rows, all the user's, ordered by count descending and then by last error descending; no row appears twice, and each comes strictly before the next in the ranking order |
| WeakSpots.WeakSpotsFromTable | main.py:285-296 | each returned row is one of the user's spots, with its count and time |
| WeakSpots.WeakSpotsTop | main.py:285-296 | a row of the user that is left out ranks after every returned row and has no more errors than any of them |
| WeakSpots.WeakSpotsEmptyIff | main.py:285-296 | the result is empty exactly when the limit is 0 or the user has no spot |
| WeakSpots.Pairs | main.py:1470 | the drill list holds the operand pairs of the rows, in order |
| WeakSpots.TrackMissNonZero | main.py:272-282 | recording a miss on non-zero operands keeps every spot non-zero |
| WeakSpots.PairsNonZero | main.py:1464-1471 | no pair of the drill list has a zero operand |
| Advisor.Flatten | main.py:427-430 | the flattened list holds both operands of each row, in row order |
| Advisor.MostCommonFrom | main.py:431-434 | the chosen element has the highest count, and every element before it has a strictly lower count |
| Advisor.MostCommon | main.py:431-434 | the most common number occurs in the list and no number occurs more often |
| Advisor.MostCommonFirst | main.py:431-434 | among numbers with the highest count, the one named occurs first |
| Advisor.OperandOfSomeRow | main.py:427-430 | every number in the flattened list is an operand of one of the rows |
| Advisor.AnalysisOf | main.py:416-443 | "not enough data" exactly when there are no spots; otherwise the report lists the spots, and the focus is an operand of one of them that occurs at least as often as any other operand |
| Advisor.AnalyzeMistakesCases | main.py:410-443 | "not enough data" exactly when the user has no spot; otherwise one to five rows, and the focus is an operand of one of the user's spots |
| Advisor.AnalysisExampleRepeated | main.py:427-434 | with 7 × 8, 6 × 7 and 7 × 9 the focus is 7 |
| Advisor.AnalysisExampleTie | main.py:427-434 | when every number occurs once, the first one is named |
| Advisor.Accuracy | main.py:2002 | the accuracy is never negative, and at most 100 when the right answers do not exceed the total |
| Advisor.TierMonotone | main.py:446-478 | a higher accuracy never gets a lower tier, and a longer streak never a weaker note |
| Advisor.TierOfCounts | main.py:446-478 | with division cleared: master when at least 9 in 10 answers are right, good from 3 in 4, fair from 1 in 2, and struggling below that |
| Advisor.PraiseFor | main.py:2002 | before the first answer the tier is the lowest |
| Session.LateLimitAgrees | main.py:1840-1847 | in every timed mode but "find x", the limit the answer handler checks is the one the timer was armed with |
| Session.FindXLateCounterexample | main.py:1845 | in "find x" mode it is not: an answer after 20 s is within a 30 s equation limit and is still refused against a 15 s level limit |
| Session.Ask | main.py:1802-1829 | operands are non-zero; a product's answer is the product and lies in the level's range; a drill takes the next listed pair; an equation's answer solves it |
| Session.JudgedCounts | main.py:1975-2049 | a judged answer always counts one question for today; it changes the user's counters and the history exactly when it is not a typo; a typo keeps the streak; a right answer raises the streak and a wrong one zeroes it; the weak spots change exactly for a wrong product |
| Session.ExpiredCounts | main.py:1891-1903 | a timeout counts as one more wrong answer, zeroes the streak, logs answer 0 with the limit as the response time, and leaves the weak spots alone |
| Session.QuizSession.constructor | main.py:1459-1471 | the session starts ready, with no question counted, no timeout and no timer; a drill holds the user's ten worst pairs at level 1 |
| Session.QuizSession.Clear | main.py:1808 | the session returns to its defaults |
| Session.QuizSession.Issue | main.py:1794-1874 | a used-up drill clears the session; otherwise the next question is `Ask` of the session, counted and waiting, with its timer armed (with the mode's limit) exactly in a timed mode |
| Session.QuizSession.Pose | main.py:1802-1874 | the question asked is `Ask` of the session's mode, level, pin and drill position; it is counted and waiting, unresolved, with its timer armed for the mode's limit exactly in a timed mode |
| Session.QuizSession.Timeout | main.py:1877-1939 | runs only once the timer has slept for the limit its question was armed with; a timer no longer armed, or one that finds no question waiting, changes nothing; otherwise it disarms itself, resolves the question once with the effects of `Expired`, remembers when it ran, and at the third timeout in a row clears the session |
| Session.QuizSession.CountMissed | main.py:1891-1903 | a question the timer ran out on is counted as wrong, bumps today's activity and is logged, as `Expired` says |
| Session.QuizSession.CountRight | main.py:1979-1990 | a right answer is counted and logged, and the praise comes from the updated row |
| Session.QuizSession.CountWrong | main.py:2039-2063 | a wrong answer is counted, a product's pair is recorded as a weak spot, the answer is logged, and the hint is `ConfusionHint` of the product |
| Session.QuizSession.Settle | main.py:1977-2069 | the verdict's effects on the tables are those of `Counted`, and the reply is `ReplyFor` the verdict on the updated tables |
| Session.QuizSession.Resolve | main.py:1970-2072 | the tables change as `Judged` says, the reply is `ReplyFor` the verdict, and the question is resolved once |
| Session.QuizSession.AnswerAsWritten | main.py:1942-2072 | the handler as the bot has it: the timer is disarmed whatever the reply; the reply is late exactly past `LateLimitAsWritten`, a failure on a message without text, a request for a number on other text, and otherwise the judged answer; a message handled after a timeout arrives strictly later than the timeout ran (times are whole seconds); the mode, level, pinned number, drill, drill position and question counter stay as they were |
| Session.QuizSession.Answer | main.py:1942-2072 | the corrected handler: late exactly when the timer is gone or the question's own limit has passed; a message without text gets the request for a number (the bot as written fails on it, see `AnswerAsWritten`); only a judged answer disarms the timer; and the question is still resolved at most once; the mode, level, pinned number, drill, drill position and question counter stay as they were |
| Session.QuizSession.Claim | main.py:1949-1951 | judging an answer disarms the timer and, when the timer was still armed, is the question's one resolution; the mode, level, pinned number, drill, drill position and question counter stay as they were |
| Scenarios.AnswerBeforeTimer | main.py:1877-1882 | a right answer first: it is judged right, the timer then does nothing, and one history row is written |
| Scenarios.TimerBeforeAnswer | main.py:1881-1903 | the timer first: the question times out, the answer after it is refused as late, and one history row is written |
| Scenarios.LateAnswerThenTimer | main.py:1948-1962 | with the corrected handler, a late answer is refused and the timer still resolves the question: one history row |
| Scenarios.LateAnswerThenTimerAsWritten | main.py:1948-1962 | with the handler as written, a late answer is refused, the timer then does nothing, no row is written, and the session keeps waiting |
| Scenarios.NotANumberAsWritten | main.py:1948-1968 | with the handler as written, a text that is not a number disarms the timer: no row is written and the session keeps waiting |
| Scenarios.FindXAfterTwentySecondsAsWritten | main.py:1957-1962 | with the handler as written, a right answer to 2·x = 6 after 20 s is refused as late and never logged |
| Scenarios.FindXAfterTwentySeconds | main.py:1957-1962 | with the corrected handler, the same answer is judged right and logged once |
| Scenarios.EquationMissed | main.py:1877-1903 | with 10 s for level-1 equations, 2·x = 6 asked at 0 times out at 10 and is logged once |
| Scenarios.FindXAnswerAfterTimerAsWritten | main.py:1957-1962 | with the handler as written and limits find_x_1 = 10 and 1 = 15, an answer at 11 s, after the timeout and before the next question replaces this one 2 s later, is judged as well: two history rows for one question |
| Scenarios.FindXAnswerAfterTimer | main.py:1957-1962 | with the corrected handler, the same answer is refused as late: one history row |
| Scenarios.AskAndMiss | main.py:1877-1929 | a question that times out adds one history row, and counts one more timeout unless it is the third in a row, which pauses the quiz |
| Scenarios.ThreeTimeoutsPause | main.py:1919-1930 | three timeouts in a row pause the quiz, after three history rows |

## Left out

- Telegram I/O, menus, message texts and formatting are not modelled. The
  reply is a datatype naming the case (late, not a number, the verdict with
  its hint or praise tier).
- The random choice of a message within a tier, `get_hint`, the admin
  notifications, reminders, broadcasts, payments and the whitelist are not
  part of this model.
- The database is in memory. SQL execution, connections and the schema are
  not modelled; each statement is a map update or a sequence append. An
  UPDATE of a user without a row changes nothing, as in SQL.
- `time.time()` and `date.today()` are parameters. Times are whole seconds
  instead of floats, so `elapsed > limit` is compared on integers.
  Accuracy is a real number.
- The configuration file with `ANSWER_TIME_LIMITS` is not part of this
  model; the limits are a map parameter of the session.
- One chat is modelled. The bot's global `active_timers` dictionary is a
  set of the chat's own timer ids (the question's start time).
- The two-second pause between a timeout and the next question is not
  modelled. The caller issues the next question.
- Buttons from old messages that switch modes or start a question while one
  is still armed are not modelled.
- Session.QuizSession.Issue: requires that no timer is armed, so a stale
  "next" button pressed while a question waits is not modelled.
- Session.QuizSession.constructor: the session is built as the mode menus
  leave it, not by a model of each menu callback.
- Decimal.ParseInt: Python's `int()` also accepts Unicode digits and
  underscores between digits. The model reads ASCII digits with an
  optional sign, after stripping ASCII whitespace.
- Integers are unbounded; the database's 64-bit integers never overflow here.
- WeakSpots.GetWeakSpots: the SQL query leaves the order of rows equal in
  count and last error to the database. The model breaks such ties by the
  operands. The limit is a natural number; a negative SQL LIMIT is not
  modelled.
- The history's `question_type` column is always "standard" and is not kept.
  The question text is kept as the product or the equation it shows.
- The question counter shown in messages is counted but not displayed.
- Session.QuizSession.Answer: a message without text gets the request for
  a number. The bot as written fails on it with an `AttributeError` from
  `message.text.strip()` (main.py:1965); `AnswerAsWritten` keeps that
  failure as its `Crashed` reply.
- Session.QuizSession.AnswerAsWritten: requires that a message handled
  after a timeout arrives strictly later than the timeout ran. With
  fractional times the bot can judge an answer that arrives in the same
  second as the timeout; whole seconds cannot express that order.
- Advisor.PraiseFor: only the lowest-tier case is stated in its contract.
  The full tier choice is stated by Advisor.TierOfCounts and
  Advisor.TierMonotone.

## Findings

| source | as written | input that shows it | evidently intended | confidence | as-written member | corrected member |
|---|---|---|---|---|---|---|
| main.py:1948-1968 | the answer handler disarms the question's timer before it checks whether the answer is late and before it parses it, then returns on a late or unreadable reply | a question with a 15 s limit, answered "42" after 16 s before its timer has run, or answered "abc"; the timer then finds itself disarmed | a question not judged by the answer stays armed, so the timer still resolves it; every question is resolved exactly once | medium, not executed | Session.QuizSession.AnswerAsWritten, Scenarios.LateAnswerThenTimerAsWritten, Scenarios.NotANumberAsWritten | Session.QuizSession.Answer, Scenarios.LateAnswerThenTimer |
| main.py:1957-1962 | in "find x" mode the late check reads the plain level's limit (`ANSWER_TIME_LIMITS[level]`, default 15), while the timer was armed with the `find_x_{level}` limit | with limits find_x_1 = 30 and 1 = 15, a right answer to 2·x = 6 after 20 s is refused as late and never logged; with find_x_1 = 10 and 1 = 15, the timer logs the question as missed at 10 s and an answer at 11 s, before the next question comes at 12 s, is judged and logged too | an answer within the limit the question was issued with is judged, and none after it | medium (depends on the configured limits), not executed | Session.LateLimitAsWritten, Session.FindXLateCounterexample, Scenarios.FindXAfterTwentySecondsAsWritten, Scenarios.FindXAnswerAfterTimerAsWritten | Session.QuizSession.Answer, Scenarios.FindXAfterTwentySeconds, Scenarios.FindXAnswerAfterTimer |

=== FILE: advisor.dfy ===
/** The assistant's analysis of a user's mistakes (the number that occurs
    most often among the worst pairs) and the tier of its motivational
    message (from the accuracy and the streak). The message texts and the
    random choice among them are not modelled; the choice of tier is. */
module Advisor {
  import opened Store
  import opened WeakSpots

  // ---------------------------------------------------------------------
  // Most common operand

  /** The operands of the rows, in order: both numbers of the first row,
      then both of the second, and so on. */
  function Flatten(rows: seq<Row>): (xs: seq<int>)
    ensures |xs| == 2 * |rows|
    ensures forall i :: 0 <= i < |rows| ==> xs[2 * i] == rows[i].num1 && xs[2 * i + 1] == rows[i].num2
  {
    if |rows| == 0 then [] else [rows[0].num1, rows[0].num2] + Flatten(rows[1..])
  }

  function Count(xs: seq<int>, v: int): nat {
    multiset(xs)[v]
  }

  /** The index, from `i` on, of the element that a counter of the whole
      of `xs` ranks first: the highest count, and among equal counts the
      earliest position. */
  function MostCommonFrom(xs: seq<int>, i: nat): (k: nat)
    requires i < |xs|
    ensures i <= k < |xs|
    ensures forall j :: i <= j < |xs| ==> Count(xs, xs[j]) <= Count(xs, xs[k])
    ensures forall j :: i <= j < k ==> Count(xs, xs[j]) < Count(xs, xs[k])
    decreases |xs| - i
  {
    if i == |xs| - 1 then i
    else
      var k := MostCommonFrom(xs, i + 1);
      if Count(xs, xs[i]) >= Count(xs, xs[k]) then i else k
  }

  /** `Counter(xs).most_common(1)[0][0]`: an element with the highest
      count; among several, the one that occurs first (the counter keeps
      elements in the order of their first occurrence and its ranking is
      stable). */
  function MostCommon(xs: seq<int>): (v: int)
    requires |xs| > 0
    ensures v in xs
    ensures forall y :: y in xs ==> Count(xs, y) <= Count(xs, v)
  {
    var k := MostCommonFrom(xs, 0);
    assert forall y :: y in xs ==> exists j :: 0 <= j < |xs| && xs[j] == y;
    xs[k]
  }

  /** The tie-break: every element that occurs before the first occurrence
      of the most common one occurs strictly fewer times. */
  lemma {:induction false} MostCommonFirst(xs: seq<int>, j: nat)
    requires |xs| > 0 && j < |xs| && Count(xs, xs[j]) == Count(xs, MostCommon(xs))
    ensures exists k :: 0 <= k <= j && xs[k] == MostCommon(xs)
  {
    var k := MostCommonFrom(xs, 0);
    assert 0 <= k <= j && xs[k] == MostCommon(xs);
  }

  /** What `analyze_mistakes` reports: not enough data, or the listed rows
      and the number the user errs with most often. */
  datatype Analysis = NotEnoughData | Report(rows: seq<Row>, focus: int)

  /** The analysis of a list of weak spots. */
  function AnalysisOf(spots: seq<Row>): (a: Analysis)
    ensures a.NotEnoughData? <==> spots == []
    ensures a.Report? ==>
      a.rows == spots && exists i :: 0 <= i < |spots| && (spots[i].num1 == a.focus || spots[i].num2 == a.focus)
    ensures a.Report? ==>
      forall y :: y in Flatten(spots) ==> Count(Flatten(spots), y) <= Count(Flatten(spots), a.focus)
  {
    if spots == [] then NotEnoughData
    else
      var v := MostCommon(Flatten(spots));
      OperandOfSomeRow(spots, v);
      Report(spots, v)
  }

  /** Every number in the flattened list is an operand of one of the rows. */
  lemma {:induction false} OperandOfSomeRow(rows: seq<Row>, v: int)
    requires v in Flatten(rows)
    ensures exists i :: 0 <= i < |rows| && (rows[i].num1 == v || rows[i].num2 == v)
  {
    if rows[0].num1 != v && rows[0].num2 != v {
      assert v in Flatten(rows[1..]);
      OperandOfSomeRow(rows[1..], v);
      var i :| 0 <= i < |rows| - 1 && (rows[1..][i].num1 == v || rows[1..][i].num2 == v);
      assert rows[i + 1] == rows[1..][i];
    }
  }

  /** `AIAssistant.analyze_mistakes`: the analysis of the user's five worst
      pairs. */
  ghost function AnalyzeMistakes(table: map<SpotKey, Spot>, user: int): Analysis
  {
    AnalysisOf(GetWeakSpots(table, user, 5))
  }

  /** The assistant asks for more practice exactly when the user has no
      weak spot; otherwise it lists at most five and names a number from
      one of them, one the user has missed in some spot. */
  lemma {:induction false} AnalyzeMistakesCases(table: map<SpotKey, Spot>, user: int)
    ensures AnalyzeMistakes(table, user).NotEnoughData? <==> forall k :: k in table ==> k.user != user
    ensures var a := AnalyzeMistakes(table, user);
      a.Report? ==>
        1 <= |a.rows| <= 5 && exists n :: SpotKey(user, a.focus, n) in table || SpotKey(user, n, a.focus) in table
  {
    WeakSpotsEmptyIff(table, user, 5);
    var a := AnalyzeMistakes(table, user);
    if a.Report? {
      var rows := GetWeakSpots(table, user, 5);
      var i :| 0 <= i < |rows| && (rows[i].num1 == a.focus || rows[i].num2 == a.focus);
      WeakSpotsFromTable(table, user, 5, i);
      if rows[i].num1 == a.focus {
        assert SpotKey(user, a.focus, rows[i].num2) in table;
      } else {
        assert SpotKey(user, rows[i].num1, a.focus) in table;
      }
    }
  }

  /** The operand counts of the first worked case: 7 three times, every
      other number once. */
  lemma RepeatedCounts(xs: seq<int>)
    requires xs == [7, 8, 6, 7, 7, 9]
    ensures Count(xs, 7) == 3 && Count(xs, 8) == 1 && Count(xs, 6) == 1 && Count(xs, 9) == 1
  {
  }

  /** Worked case: with 7 × 8, 6 × 7 and 7 × 9 the focus is 7. */
  lemma AnalysisExampleRepeated()
    ensures AnalysisOf([Row(7, 8, 3, 0), Row(6, 7, 2, 0), Row(7, 9, 1, 0)]).focus == 7
  {
    var xs := Flatten([Row(7, 8, 3, 0), Row(6, 7, 2, 0), Row(7, 9, 1, 0)]);
    assert xs == [7, 8, 6, 7, 7, 9];
    RepeatedCounts(xs);
    var v := MostCommon(xs);
    assert v in xs && Count(xs, v) >= Count(xs, 7);
  }

  /** The operand counts of the second worked case: every number once. */
  lemma TieCounts(ys: seq<int>)
    requires ys == [6, 8, 3, 4]
    ensures Count(ys, 6) == 1 && Count(ys, 8) == 1 && Count(ys, 3) == 1 && Count(ys, 4) == 1
  {
  }

  /** Worked case: with 6 × 8 and 3 × 4 every number occurs once, and the
      first one, 6, is named. */
  lemma AnalysisExampleTie()
    ensures AnalysisOf([Row(6, 8, 2, 0), Row(3, 4, 1, 0)]).focus == 6
  {
    var ys := Flatten([Row(6, 8, 2, 0), Row(3, 4, 1, 0)]);
    assert ys == [6, 8, 3, 4];
    TieCounts(ys);
    MostCommonFirst(ys, 0);
  }

  // ---------------------------------------------------------------------
  // Motivational message

  /** The four message lists of `get_motivational_message`. */
  datatype Tier = Struggling | Fair | Good | Master

  function Rank(t: Tier): nat {
    match t
    case Struggling => 0
    case Fair => 1
    case Good => 2
    case Master => 3
  }

  /** The list is chosen by the accuracy in percent: at least 90, at least
      75, at least 50, or below. */
  function TierOf(accuracy: real): Tier
  {
    if accuracy >= 90.0 then Master
    else if accuracy >= 75.0 then Good
    else if accuracy >= 50.0 then Fair
    else Struggling
  }

  /** The line added for a streak: none below 5, a mild one from 5, a
      strong one from 10. */
  datatype StreakNote = NoNote | Mild | Strong

  function NoteOf(streak: int): StreakNote
  {
    if streak >= 10 then Strong else if streak >= 5 then Mild else NoNote
  }

  /** The accuracy shown after a right answer: right answers over answers,
      in percent, or 0 before the first answer. */
  function Accuracy(correct: nat, total: nat): (a: real)
    ensures 0.0 <= a
    ensures correct <= total ==> a <= 100.0
  {
    if total > 0 then (correct as real) / (total as real) * 100.0 else 0.0
  }

  /** A higher accuracy never gets a lower tier, and a longer streak never
      a weaker note. */
  lemma TierMonotone(a: real, b: real, s: int, t: int)
    requires a <= b && s <= t
    ensures Rank(TierOf(a)) <= Rank(TierOf(b))
    ensures NoteOf(s) == Strong ==> NoteOf(t) == Strong
    ensures NoteOf(s) == Mild ==> NoteOf(t) != NoNote
  {
  }

  lemma PercentAtLeast(correct: nat, total: nat, p: int)
    requires total > 0
    ensures Accuracy(correct, total) >= p as real <==> 100 * correct >= p * total
  {
    var c, t := correct as real, total as real;
    assert Accuracy(correct, total) == c * 100.0 / t;
    assert Accuracy(correct, total) * t == c * 100.0;
  }

  /** The tier in terms of the counters themselves, with no division: for
      `total > 0`, master when at least nine answers in ten are right, good
      from three in four, fair from one in two. */
  lemma {:induction false} TierOfCounts(correct: nat, total: nat)
    requires total > 0
    ensures TierOf(Accuracy(correct, total)) == Master <==> 10 * correct >= 9 * total
    ensures TierOf(Accuracy(correct, total)) == Good <==> 4 * correct >= 3 * total && 10 * correct < 9 * total
    ensures TierOf(Accuracy(correct, total)) == Fair <==> 2 * correct >= total && 4 * correct < 3 * total
    ensures TierOf(Accuracy(correct, total)) == Struggling <==> 2 * correct < total
  {
    PercentAtLeast(correct, total, 90);
    PercentAtLeast(correct, total, 75);
    PercentAtLeast(correct, total, 50);
  }

  /** The tier and note that follow a right answer, from the user's row
      after it was counted. */
  datatype Praise = Praise(tier: Tier, note: StreakNote)

  function PraiseFor(p: Profile): (r: Praise)
    ensures p.total == 0 ==> r.tier == Struggling
  {
    Praise(TierOf(Accuracy(p.correct, p.total)), NoteOf(p.streak))
  }
}

=== FILE: arith.dfy ===
/** Integer facts shared by the evaluator and the generators. */
module Arith {

  function Abs(n: int): nat {
    if n < 0 then -n else n
  }

  /** A non-zero factor does not shrink the magnitude of a product. */
  lemma MulAbs(a: int, b: int)
    requires b != 0
    ensures Abs(a * b) >= Abs(a)
  {
    if b > 0 {
      if a >= 0 { assert a * b >= a * 1; } else { assert a * b <= a * 1; }
    } else {
      if a >= 0 { assert a * b <= a * -1; } else { assert a * b >= a * -1; }
    }
  }

  /** A product with a non-zero factor is zero only when the other is. */
  lemma ZeroProduct(a: int, b: int)
    requires a != 0 && a * b == 0
    ensures b == 0
  {
    if b != 0 {
      MulAbs(a, b);
    }
  }

  /** Dividing an exact multiple gives the other factor back, with no
      remainder. */
  lemma DivExact(n: int, d: int, q: int)
    requires d != 0 && n == d * q
    ensures n % d == 0 && n / d == q
  {
    var q', r := n / d, n % d;
    assert n == d * q' + r && 0 <= r < Abs(d);
    assert d * (q - q') == r;
    if q != q' {
      MulAbs(d, q - q');
    }
  }
}

=== FILE: decimal.dfy ===
/** Decimal text of integers, as the bot reads and writes it: Python's
    `str(n)` (an optional leading `-`, then the digits without leading
    zeros) and `int(text.strip())` for plain ASCII input. The answer check
    compares the `str` renderings of two integers. */
module Decimal {
  import opened Wrappers

  predicate IsDigit(c: char) {
    '0' <= c <= '9'
  }

  predicate AllDigits(s: string) {
    forall i :: 0 <= i < |s| ==> IsDigit(s[i])
  }

  function DigitChar(d: nat): (c: char)
    requires d <= 9
    ensures IsDigit(c)
  {
    ('0' as int + d) as char
  }

  function DigitValue(c: char): nat
    requires IsDigit(c)
  {
    (c as int - '0' as int) as nat
  }

  /** Python's `str` of a non-negative integer. */
  function NatStr(n: nat): string
  {
    if n < 10 then [DigitChar(n)] else NatStr(n / 10) + [DigitChar(n % 10)]
  }

  /** Python's `str` of an integer: the sign is kept as a leading `-`. */
  function IntStr(n: int): string
  {
    if n < 0 then "-" + NatStr(-n) else NatStr(n)
  }

  /** The value of a string of decimal digits, most significant first. */
  function DigitsValue(s: string): nat
    requires AllDigits(s)
  {
    if |s| == 0 then 0 else DigitsValue(s[..|s| - 1]) * 10 + DigitValue(s[|s| - 1])
  }

  /** The ASCII characters that Python's `str.isspace` accepts. */
  predicate IsSpace(c: char) {
    c == ' ' || '\t' <= c <= '\r' || '\U{1c}' <= c <= '\U{1f}'
  }

  /** Every character of `s` is white space. */
  predicate AllSpaces(s: string) {
    forall i :: 0 <= i < |s| ==> IsSpace(s[i])
  }

  /** `lstrip()`: the longest suffix that does not start with white space;
      only white space is dropped. */
  function StripLeft(s: string): (r: string)
    ensures |r| <= |s|
    ensures exists k :: 0 <= k <= |s| && r == s[k..] && forall i :: 0 <= i < k ==> IsSpace(s[i])
    ensures |r| > 0 ==> !IsSpace(r[0])
  {
    if |s| > 0 && IsSpace(s[0]) then
      var r := StripLeft(s[1..]);
      var k :| 0 <= k <= |s| - 1 && r == s[1..][k..] && forall i :: 0 <= i < k ==> IsSpace(s[1..][i]);
      assert s[1..][k..] == s[k + 1..];
      r
    else
      assert s[0..] == s;
      s
  }

  /** `rstrip()`: the longest prefix that does not end with white space;
      only white space is dropped. */
  function StripRight(s: string): (r: string)
    ensures |r| <= |s|
    ensures exists k :: 0 <= k <= |s| && r == s[..k] && forall i :: k <= i < |s| ==> IsSpace(s[i])
    ensures |r| > 0 ==> !IsSpace(r[|r| - 1])
  {
    if |s| > 0 && IsSpace(s[|s| - 1]) then
      var p := s[..|s| - 1];
      var r := StripRight(p);
      var k :| 0 <= k <= |p| && r == p[..k] && forall i :: k <= i < |p| ==> IsSpace(p[i]);
      assert p[..k] == s[..k];
      r
    else
      assert s[..|s|] == s;
      s
  }

  /** `text.strip()`. */
  function Strip(s: string): string {
    StripRight(StripLeft(s))
  }

  /** Python's `int(text.strip())` on ASCII text: an optional sign followed
      by at least one decimal digit; anything else raises `ValueError`,
      which is `None` here. */
  function ParseInt(text: string): Option<int>
  {
    var t := Strip(text);
    if |t| > 0 && (t[0] == '-' || t[0] == '+') then
      var ds := t[1..];
      if |ds| > 0 && AllDigits(ds) then
        var v: int := DigitsValue(ds);
        Some(if t[0] == '-' then -v else v)
      else None
    else if |t| > 0 && AllDigits(t) then Some(DigitsValue(t) as int)
    else None
  }

  /** The rendering of a natural number is a non-empty string of digits,
      without a leading zero, whose value is the number. */
  lemma {:induction false} NatStrDigits(n: nat)
    ensures |NatStr(n)| >= 1 && AllDigits(NatStr(n))
    ensures DigitsValue(NatStr(n)) == n
    ensures NatStr(n)[0] == '0' <==> n == 0
  {
    if n >= 10 {
      NatStrDigits(n / 10);
      var s := NatStr(n);
      assert s[..|s| - 1] == NatStr(n / 10);
    }
  }

  /** A rendering has at least two characters exactly when the number has
      at least two digits or is negative (the `-` counts). */
  lemma {:induction false} IntStrLength(n: int)
    ensures |IntStr(n)| >= 1
    ensures |IntStr(n)| >= 2 <==> (n <= -1 || n >= 10)
  {
    if n < 0 {
      NatStrDigits(-n);
    } else if n >= 10 {
      NatStrDigits(n / 10);
    }
  }

  /** White space in front is all that `lstrip()` removes. */
  lemma {:induction false} StripLeftSpaces(w: string, t: string)
    requires AllSpaces(w) && |t| > 0 && !IsSpace(t[0])
    ensures StripLeft(w + t) == t
    decreases |w|
  {
    if |w| > 0 {
      assert (w + t)[1..] == w[1..] + t;
      StripLeftSpaces(w[1..], t);
    } else {
      assert w + t == t;
    }
  }

  /** White space at the end is all that `rstrip()` removes. */
  lemma {:induction false} StripRightSpaces(t: string, w: string)
    requires AllSpaces(w) && |t| > 0 && !IsSpace(t[|t| - 1])
    ensures StripRight(t + w) == t
    decreases |w|
  {
    if |w| > 0 {
      assert (t + w)[..|t + w| - 1] == t + w[..|w| - 1];
      StripRightSpaces(t, w[..|w| - 1]);
    } else {
      assert t + w == t;
    }
  }

  /** `strip()` removes exactly the white space around a text that starts
      and ends with something else. */
  lemma StripAround(w1: string, t: string, w2: string)
    requires AllSpaces(w1) && AllSpaces(w2)
    requires |t| > 0 && !IsSpace(t[0]) && !IsSpace(t[|t| - 1])
    ensures Strip(w1 + t + w2) == t
  {
    StripRightSpaces(t, w2);
    assert (t + w2)[0] == t[0];
    assert w1 + t + w2 == w1 + (t + w2);
    StripLeftSpaces(w1, t + w2);
  }

  /** Reading back what the bot renders gives the number again. */
  lemma ParseIntBare(n: int)
    ensures ParseInt(IntStr(n)) == Some(n)
  {
    var s := IntStr(n);
    var m := if n < 0 then -n else n;
    NatStrDigits(m);
    assert s[0] != '-' ==> n >= 0;
    StripFixed(s);
    if n < 0 {
      assert s[1..] == NatStr(-n);
    }
  }

  /** Reading back what the bot renders gives the number again, bare or
      with any white space around it. */
  lemma ParseIntStr(n: int, w1: string, w2: string)
    requires AllSpaces(w1) && AllSpaces(w2)
    ensures ParseInt(IntStr(n)) == Some(n)
    ensures ParseInt(w1 + IntStr(n) + w2) == Some(n)
  {
    var s := IntStr(n);
    ParseIntBare(n);
    IntStrEnds(n);
    StripFixed(s);
    StripAround(w1, s, w2);
    assert Strip(w1 + s + w2) == Strip(s);
  }

  /** A rendering starts and ends with something other than white space. */
  lemma IntStrEnds(n: int)
    ensures |IntStr(n)| >= 1 && !IsSpace(IntStr(n)[0]) && !IsSpace(IntStr(n)[|IntStr(n)| - 1])
  {
    NatStrDigits(if n < 0 then -n else n);
  }

  /** A text that starts and ends with something other than white space
      has nothing to strip; a rendering is one. */
  lemma StripFixed(s: string)
    requires |s| >= 1 && !IsSpace(s[0]) && !IsSpace(s[|s| - 1])
    ensures Strip(s) == s
  {
  }

  /** Different numbers have different renderings. */
  lemma IntStrInjective(a: int, b: int)
    ensures IntStr(a) == IntStr(b) <==> a == b
  {
    ParseIntStr(a, "", "");
    ParseIntStr(b, "", "");
  }

  /** Negating a positive number prefixes its rendering with `-`. */
  lemma IntStrNegate(n: int)
    requires n > 0
    ensures IntStr(-n) == "-" + IntStr(n)
  {
  }
}

=== FILE: evaluator.dfy ===
/** The answer evaluator: the typo tolerance applied to a numeric answer,
    and the "you computed a × k instead" hint shown after a wrong answer to
    a multiplication question. */
module Evaluator {
  import opened Wrappers
  import opened Decimal
  import opened Levenshtein
  import opened Arith

  datatype Verdict = Correct | Typo | Incorrect

  /** The answer `answer` to a question whose answer is `correct`: right;
      else a typo when it is off by one, or when the expected answer renders
      with at least two characters and the two renderings are one edit
      apart; else wrong. */
  function Classify(answer: int, correct: int): Verdict
  {
    if answer == correct then Correct
    else if Abs(answer - correct) <= 1 then Typo
    else if |IntStr(correct)| >= 2 && Dist(IntStr(answer), IntStr(correct)) <= 1 then Typo
    else Incorrect
  }

  /** Only the expected answer itself is right. */
  lemma ClassifyCorrectIff(answer: int, correct: int)
    ensures Classify(answer, correct) == Correct <==> answer == correct
  {
  }

  /** A wrong answer is a typo exactly when it is off by one or, for an
      expected answer of at least two characters, one edit away; all other
      wrong answers are mistakes. */
  lemma ClassifyTypoIff(answer: int, correct: int)
    ensures Classify(answer, correct) == Typo <==>
      answer != correct &&
      (Abs(answer - correct) <= 1 ||
       ((correct <= -1 || correct >= 10) && Dist(IntStr(answer), IntStr(correct)) <= 1))
  {
    IntStrLength(correct);
  }

  /** Neighbours of the expected answer are always typos. */
  lemma {:induction false} OffByOneIsTypo(correct: int)
    ensures Classify(correct + 1, correct) == Typo
    ensures Classify(correct - 1, correct) == Typo
  {
  }

  /** For a one-digit expected answer (0 to 9) the edit distance plays no
      part: only the two neighbours are typos. */
  lemma {:induction false} SingleDigitOnlyNeighbours(answer: int, correct: int)
    requires 0 <= correct <= 9
    ensures Classify(answer, correct) == Typo <==> Abs(answer - correct) == 1
  {
    IntStrLength(correct);
  }

  /** Changing one character of an expected answer rendered with at least
      two characters is a typo, however far apart the two values are. */
  lemma {:induction false} OneDigitChangedIsTypo(answer: int, correct: int, i: nat, c: char)
    requires |IntStr(correct)| >= 2 && i < |IntStr(correct)|
    requires IntStr(answer) == IntStr(correct)[i := c]
    ensures Classify(answer, correct) != Incorrect
  {
    IntStrLength(correct);
    DistSubstitution(IntStr(correct), i, c);
  }

  /** Answering the negation of a non-zero expected answer is a typo (one
      inserted or deleted `-`) unless the expected answer is a positive
      single digit, where it is a mistake. */
  lemma {:induction false} SignFlip(correct: int)
    requires correct != 0
    ensures Classify(-correct, correct) == Typo <==> !(1 <= correct <= 9)
  {
    IntStrLength(correct);
    if correct > 0 {
      IntStrNegate(correct);
      DistConsOne('-', IntStr(correct));
    } else {
      IntStrNegate(-correct);
      DistConsOne('-', IntStr(-correct));
      DistSymmetric(IntStr(correct), IntStr(-correct));
    }
  }

  /** Answers whose renderings differ in length by two or more are never
      typos of a value more than one away. */
  lemma {:induction false} LengthGapIsMistake(answer: int, correct: int)
    requires Abs(answer - correct) > 1
    requires |IntStr(answer)| >= |IntStr(correct)| + 2 || |IntStr(correct)| >= |IntStr(answer)| + 2
    ensures Classify(answer, correct) == Incorrect
  {
    DistLowerBound(IntStr(answer), IntStr(correct));
  }

  /** Worked cases for 6 × 7 = 42: 41 is a typo (off by one), and 52 is a
      typo too (one digit changed). */
  lemma TypoExamples()
    ensures Classify(41, 42) == Typo
    ensures Classify(52, 42) == Typo
  {
    assert IntStr(52) == "52" && IntStr(42) == "42";
    assert Dist("5", "4") == 1;
    assert Dist("52", "4") == 2;
    assert Dist("5", "42") == 2;
    assert Dist("52", "42") == 1;
  }

  /** Worked cases of mistakes: 24 for 42 (two edits), and 7 for 4 (a
      one-digit expected answer, so no edit distance is tried). */
  lemma MistakeExamples()
    ensures Classify(24, 42) == Incorrect
    ensures Classify(7, 4) == Incorrect
  {
    assert IntStr(42) == "42" && IntStr(24) == "24" && IntStr(4) == "4";
    assert Dist("2", "4") == 1;
    assert Dist("2", "42") == 1;
    assert Dist("24", "4") == 1;
    assert Dist("24", "42") == 2;
  }

  /** The check of `process_answer`: equality first, then the typo
      tolerance, computing the edit distance only when the difference is
      more than one and the expected answer renders with two characters or
      more. */
  method Judge(answer: int, correct: int) returns (v: Verdict)
    ensures v == Classify(answer, correct)
  {
    if answer == correct {
      return Correct;
    }
    var isTypo := false;
    if Abs(answer - correct) <= 1 {
      isTypo := true;
    } else if |IntStr(correct)| >= 2 {
      var dist := LevenshteinDistance(IntStr(answer), IntStr(correct));
      if dist <= 1 {
        isTypo := true;
      }
    }
    v := if isTypo then Typo else Incorrect;
  }

  /** The source of a wrong product, as the hint names it: `num1 × k`
      (the second factor confused) or `k × num2` (the first one). */
  datatype Confusion = SecondFactorSwapped(k: int) | FirstFactorSwapped(k: int)

  /** The hint part of `explain_mistake`. A non-zero answer divisible by
      `num1` is read as `num1 × k`, and named when `k` is a different factor
      from 1 to 10; otherwise, only when the answer is not divisible by
      `num1`, it is read as `k × num2`, named when `k` is a different factor
      from 1 to 100. Divisibility by a non-zero number does not depend on
      the signs, and an exact quotient is the same under Python's floor
      division as under Dafny's. */
  function ConfusionHint(num1: int, num2: int, answer: int): (h: Option<Confusion>)
    requires answer != 0 ==> num1 != 0
    requires answer != 0 && answer % num1 != 0 ==> num2 != 0
    ensures h.Some? && h.value.SecondFactorSwapped? ==>
      num1 * h.value.k == answer && h.value.k != num2 && 1 <= h.value.k <= 10
    ensures h.Some? && h.value.FirstFactorSwapped? ==>
      answer != 0 && answer % num1 != 0 && h.value.k * num2 == answer && h.value.k != num1 && 1 <= h.value.k <= 100
  {
    if answer != 0 && answer % num1 == 0 then
      var k := answer / num1;
      if k != num2 && 1 <= k <= 10 then Some(SecondFactorSwapped(k)) else None
    else if answer != 0 && answer % num2 == 0 then
      var k := answer / num2;
      if k != num1 && 1 <= k <= 100 then Some(FirstFactorSwapped(k)) else None
    else None
  }

  /** Every plausible swap of the second factor is reported. */
  lemma HintSecondFactorComplete(num1: int, num2: int, k: int)
    requires num1 != 0 && num2 != 0
    requires k != num2 && 1 <= k <= 10
    ensures ConfusionHint(num1, num2, num1 * k) == Some(SecondFactorSwapped(k))
  {
    var answer := num1 * k;
    assert answer % num1 == 0 && answer / num1 == k by {
      DivExact(answer, num1, k);
    }
  }

  /** When the answer is not a multiple of `num1`, every plausible swap of
      the first factor is reported. */
  lemma HintFirstFactorComplete(num1: int, num2: int, k: int)
    requires num1 != 0 && num2 != 0
    requires k != num1 && 1 <= k <= 100
    requires (k * num2) % num1 != 0
    ensures ConfusionHint(num1, num2, k * num2) == Some(FirstFactorSwapped(k))
  {
    var answer := k * num2;
    assert answer % num2 == 0 && answer / num2 == k by {
      DivExact(answer, num2, k);
    }
  }

  /** `if`/`elif`: a non-zero multiple of `num1` whose quotient is out of
      range, or equal to `num2`, gets no hint at all, even when it is a
      plausible multiple of `num2`. */
  lemma HintNoFallThrough(num1: int, num2: int, answer: int)
    requires num1 != 0 && num2 != 0 && answer != 0
    requires answer % num1 == 0
    requires !(answer / num1 != num2 && 1 <= answer / num1 <= 10)
    ensures ConfusionHint(num1, num2, answer) == None
  {
  }

  /** A zero answer never gets a hint. */
  lemma HintZeroAnswer(num1: int, num2: int)
    ensures ConfusionHint(num1, num2, 0) == None
  {
  }

  /** Worked cases for 6 × 7 = 42: 24 is read as 6 × 4 and 60 as 6 × 10;
      66 (6 × 11) gets no hint; 35, no multiple of 6, is read as 5 × 7. For
      2 × 7, the answer 28 is 2 × 14, out of range, so the plausible 4 × 7 is
      never tried. */
  lemma HintExamples()
    ensures ConfusionHint(6, 7, 24) == Some(SecondFactorSwapped(4))
    ensures ConfusionHint(6, 7, 60) == Some(SecondFactorSwapped(10))
    ensures ConfusionHint(6, 7, 66) == None
    ensures ConfusionHint(6, 7, 35) == Some(FirstFactorSwapped(5))
    ensures ConfusionHint(2, 7, 28) == None
  {
  }
}

=== FILE: levenshtein.dfy ===
/** Edit distance between two strings, as used by the typo tolerance of the
    answer check: a recursive reference definition over prefixes, the
    two-row table computation of the bot, and the laws that the answer
    classification relies on. */
module Levenshtein {

  function Min3(a: nat, b: nat, c: nat): nat {
    if a <= b && a <= c then a else if b <= c then b else c
  }

  function Max(a: nat, b: nat): nat {
    if a >= b then a else b
  }

  /** The classic Levenshtein distance, defined on prefixes: the last
      character of `s` is deleted, or the last character of `t` is
      inserted, or the two last characters are matched (at cost 0 when
      equal, 1 when substituted). Cell (|s|, |t|) of the table. */
  function Dist(s: string, t: string): nat
    decreases |s| + |t|
  {
    if |s| == 0 then |t|
    else if |t| == 0 then |s|
    else Min3(Dist(s[..|s| - 1], t) + 1,
              Dist(s, t[..|t| - 1]) + 1,
              Dist(s[..|s| - 1], t[..|t| - 1]) + (if s[|s| - 1] == t[|t| - 1] then 0 else 1))
  }

  /** The distance does not depend on the order of its arguments; the bot
      relies on this when it swaps the strings so that the first one is the
      longer. */
  lemma {:induction false} DistSymmetric(s: string, t: string)
    ensures Dist(s, t) == Dist(t, s)
    decreases |s| + |t|
  {
    if |s| != 0 && |t| != 0 {
      DistSymmetric(s[..|s| - 1], t);
      DistSymmetric(s, t[..|t| - 1]);
      DistSymmetric(s[..|s| - 1], t[..|t| - 1]);
    }
  }

  /** A string is at distance 0 from itself. */
  lemma {:induction false} DistSelf(s: string)
    ensures Dist(s, s) == 0
    decreases |s|
  {
    if |s| != 0 {
      DistSelf(s[..|s| - 1]);
    }
  }

  /** Identity of indiscernibles: distance 0 exactly when the strings are equal. */
  lemma {:induction false} DistZeroIff(s: string, t: string)
    ensures Dist(s, t) == 0 <==> s == t
    decreases |s| + |t|
  {
    if s == t {
      DistSelf(s);
    } else if |s| != 0 && |t| != 0 {
      var s', t' := s[..|s| - 1], t[..|t| - 1];
      assert s == s' + [s[|s| - 1]] && t == t' + [t[|t| - 1]];
      if s[|s| - 1] == t[|t| - 1] {
        DistZeroIff(s', t');
      }
    }
  }

  /** The distance with an empty string is the other string's length, and
      no distance exceeds the length of the longer string. */
  lemma {:induction false} DistUpperBound(s: string, t: string)
    ensures Dist(s, []) == |s| && Dist([], t) == |t|
    ensures Dist(s, t) <= Max(|s|, |t|)
    decreases |s| + |t|
  {
    if |s| != 0 && |t| != 0 {
      DistUpperBound(s[..|s| - 1], t[..|t| - 1]);
    }
  }

  /** No distance is smaller than the difference of the lengths. */
  lemma {:induction false} DistLowerBound(s: string, t: string)
    ensures Dist(s, t) >= |s| - |t| && Dist(s, t) >= |t| - |s|
    decreases |s| + |t|
  {
    if |s| != 0 && |t| != 0 {
      DistLowerBound(s[..|s| - 1], t);
      DistLowerBound(s, t[..|t| - 1]);
      DistLowerBound(s[..|s| - 1], t[..|t| - 1]);
    }
  }

  /** Prefixing one character costs exactly one edit. */
  lemma {:induction false} DistConsOne(c: char, t: string)
    ensures Dist([c] + t, t) == 1
    decreases |t|
  {
    var s := [c] + t;
    if |t| != 0 {
      var t' := t[..|t| - 1];
      assert s[..|s| - 1] == [c] + t';
      DistConsOne(c, t');
      assert Dist(s, t) <= 1;
      DistZeroIff(s, t);
    }
  }

  /** Replacing one character costs at most one edit. */
  lemma {:induction false} DistSubstitution(s: string, i: nat, c: char)
    requires i < |s|
    ensures Dist(s[i := c], s) <= 1
    decreases |s|
  {
    var r := s[i := c];
    var n := |s|;
    if i == n - 1 {
      assert r[..n - 1] == s[..n - 1];
      DistSelf(s[..n - 1]);
    } else {
      assert r[..n - 1] == s[..n - 1][i := c];
      DistSubstitution(s[..n - 1], i, c);
    }
  }

  /** One cell of the table, in terms of the cells above, to the left and
      diagonally before it. */
  lemma DistCell(s1: string, s2: string, i: nat, j: nat)
    requires i < |s1| && j < |s2|
    ensures Dist(s1[..i + 1], s2[..j + 1])
         == Min3(Dist(s1[..i], s2[..j + 1]) + 1,
                 Dist(s1[..i + 1], s2[..j]) + 1,
                 Dist(s1[..i], s2[..j]) + (if s1[i] == s2[j] then 0 else 1))
  {
    assert s1[..i + 1][..i] == s1[..i] && s2[..j + 1][..j] == s2[..j];
  }

  /** One pass of the bot's outer loop: from the row of prefix `s1[..i]`
      builds the row of prefix `s1[..i + 1]`, appending one cell per
      character of `s2`. */
  method NextRow(s1: string, s2: string, i: nat, previousRow: seq<nat>) returns (currentRow: seq<nat>)
    requires i < |s1|
    requires |previousRow| == |s2| + 1
    requires forall j :: 0 <= j <= |s2| ==> previousRow[j] == Dist(s1[..i], s2[..j])
    ensures |currentRow| == |s2| + 1
    ensures forall j :: 0 <= j <= |s2| ==> currentRow[j] == Dist(s1[..i + 1], s2[..j])
  {
    var c1 := s1[i];
    assert s2[..0] == [];
    currentRow := [i + 1];
    var j := 0;
    while j < |s2|
      invariant 0 <= j <= |s2|
      invariant |currentRow| == j + 1
      invariant forall k :: 0 <= k <= j ==> currentRow[k] == Dist(s1[..i + 1], s2[..k])
    {
      var c2 := s2[j];
      var insertions := previousRow[j + 1] + 1;
      var deletions := currentRow[j] + 1;
      var substitutions := previousRow[j] + (if c1 != c2 then 1 else 0);
      var cell := Min3(insertions, deletions, substitutions);
      DistCell(s1, s2, i, j);
      assert cell == Dist(s1[..i + 1], s2[..j + 1]);
      currentRow := currentRow + [cell];
      j := j + 1;
    }
  }

  /** The bot's `levenshtein_distance`: if the first string is the shorter,
      the call is repeated with the arguments swapped; an empty second string
      gives the first one's length; otherwise the table is filled row by row,
      keeping only the previous and the current row. */
  method LevenshteinDistance(s1: string, s2: string) returns (d: nat)
    ensures d == Dist(s1, s2)
    decreases if |s1| < |s2| then 1 else 0
  {
    if |s1| < |s2| {
      d := LevenshteinDistance(s2, s1);
      DistSymmetric(s1, s2);
      return;
    }
    if |s2| == 0 {
      return |s1|;
    }
    var previousRow: seq<nat> := seq(|s2| + 1, j => j);
    assert s1[..0] == [];
    var i := 0;
    while i < |s1|
      invariant 0 <= i <= |s1|
      invariant |previousRow| == |s2| + 1
      invariant forall j :: 0 <= j <= |s2| ==> previousRow[j] == Dist(s1[..i], s2[..j])
    {
      previousRow := NextRow(s1, s2, i, previousRow);
      i := i + 1;
    }
    assert s1[..|s1|] == s1 && s2[..|s2|] == s2;
    d := previousRow[|s2|];
  }
}

=== FILE: questions.dfy ===
/** The question generators: multiplication questions per difficulty level,
    and "find x" linear equations in six shapes with their worked
    explanation. Every random draw of the bot is a parameter here, with the
    range the bot draws it from as a precondition. */
module Questions {
  import opened Wrappers
  import opened Arith

  // ---------------------------------------------------------------------
  // Multiplication questions

  datatype Product = Product(num1: int, num2: int, correct: int)

  /** The operand pinned by the "specific number" mode, if any. Python's
      `if specific_number:` treats 0 like no pin. */
  predicate IsPinned(pinned: Option<int>) {
    pinned.Some? && pinned.value != 0
  }

  /** The draws `generate_question` makes: `d1` for the first operand
      (unused when it is pinned) and `d2` for the second. */
  predicate ProductDrawsOk(level: int, pinned: Option<int>, d1: int, d2: int) {
    if level == 1 then (IsPinned(pinned) || 2 <= d1 <= 9) && 2 <= d2 <= 9
    else if level == 2 then 10 <= d1 <= 99 && 2 <= d2 <= 9
    else 10 <= d1 <= 99 && 10 <= d2 <= 99
  }

  /** The operand ranges of a level: 2–9 by 2–9 at level 1 (the first
      operand fixed when pinned), 10–99 by 2–9 at level 2, and 10–99 by
      10–99 at any other level. */
  predicate InLevelRange(level: int, pinned: Option<int>, num1: int, num2: int) {
    if level == 1 then
      (if IsPinned(pinned) then num1 == pinned.value else 2 <= num1 <= 9) && 2 <= num2 <= 9
    else if level == 2 then 10 <= num1 <= 99 && 2 <= num2 <= 9
    else 10 <= num1 <= 99 && 10 <= num2 <= 99
  }

  /** `generate_question`: the operands for the level and their product. */
  function GenerateQuestion(level: int, pinned: Option<int>, d1: int, d2: int): (q: Product)
    requires ProductDrawsOk(level, pinned, d1, d2)
    ensures InLevelRange(level, pinned, q.num1, q.num2)
    ensures q.correct == q.num1 * q.num2
    ensures q.num1 != 0 && q.num2 != 0
  {
    if level == 1 then
      if IsPinned(pinned) then Product(pinned.value, d2, pinned.value * d2)
      else Product(d1, d2, d1 * d2)
    else Product(d1, d2, d1 * d2)
  }

  /** Every pair of operands of a level's range can come out. */
  lemma GenerateQuestionCovers(level: int, pinned: Option<int>, num1: int, num2: int)
    requires InLevelRange(level, pinned, num1, num2)
    ensures exists d1, d2 :: ProductDrawsOk(level, pinned, d1, d2) &&
                             GenerateQuestion(level, pinned, d1, d2) == Product(num1, num2, num1 * num2)
  {
    var d1 := if level == 1 && IsPinned(pinned) then 2 else num1;
    assert ProductDrawsOk(level, pinned, d1, num2);
    assert GenerateQuestion(level, pinned, d1, num2) == Product(num1, num2, num1 * num2);
  }

  // ---------------------------------------------------------------------
  // "Find x" equations

  datatype Sign = Plus | Minus

  /** The equation as the bot renders it (coefficients and constants are
      the numbers shown; `x` is the unknown). */
  datatype Equation =
    | CoefFirst(a: int, b: int)                  // "a × x = b"
    | CoefLast(a: int, b: int)                   // "x × a = b"
    | CoefThenConst(a: int, s: Sign, c: int, b: int)  // "a · x + c = b" or "a · x - c = b"
    | ConstThenCoef(c: int, s: Sign, a: int, b: int)  // "c + a · x = b" or "c - a · x = b"

  function Apply(s: Sign, l: int, r: int): int {
    match s
    case Plus => l + r
    case Minus => l - r
  }

  /** The left-hand side evaluated at `x`. */
  function Lhs(e: Equation, x: int): int {
    match e
    case CoefFirst(a, _) => a * x
    case CoefLast(a, _) => x * a
    case CoefThenConst(a, s, c, _) => Apply(s, a * x, c)
    case ConstThenCoef(c, s, a, _) => Apply(s, c, a * x)
  }

  /** `x` makes the rendered equation true. */
  predicate Solves(e: Equation, x: int) {
    Lhs(e, x) == e.b
  }

  /** The coefficient of the unknown as the equation shows it. */
  function Coefficient(e: Equation): int {
    match e
    case CoefFirst(a, _) => a
    case CoefLast(a, _) => a
    case CoefThenConst(a, _, _, _) => a
    case ConstThenCoef(_, s, a, _) => if s == Plus then a else -a
  }

  /** The worked explanation: "coef·x = rhs", then "x = rhs / divisor = x".
      `rhs` is the number shown after moving the constant across. */
  datatype Explanation = Explanation(coef: int, rhs: int, divisor: int)

  datatype FindX = FindX(equation: Equation, x: int, explanation: Explanation, multiplier: int)

  /** The draws of `generate_find_x_question`: `x`, the magnitude `a`, the
      coin `flip` (the coefficient's side at level 1, its sign at levels 2
      and 3), the constant `c` and the equation shape. */
  datatype FindXDraws = FindXDraws(x: int, a: int, flip: bool, c: int, shape: int)

  predicate FindXDrawsOk(level: int, d: FindXDraws) {
    if level == 1 then 2 <= d.a <= 20 && 2 <= d.x <= 20
    else if level == 2 then -10 <= d.x <= 10 && 2 <= d.a <= 10 && 0 <= d.c <= 9 && 1 <= d.shape <= 4
    else -20 <= d.x <= 20 && 2 <= d.a <= 20 && 10 <= d.c <= 999 && 1 <= d.shape <= 2
  }

  /** What every generated "find x" question satisfies: `x` solves the
      rendered equation and is not 0, the reported multiplier is the size of
      the shown coefficient and at least 2, and the explanation's lines
      "coef·x = rhs" and "x = rhs / divisor" hold exactly. */
  predicate WellFormed(r: FindX) {
    && Solves(r.equation, r.x)
    && r.x != 0 && r.multiplier >= 2 && r.multiplier == Abs(Coefficient(r.equation))
    && r.explanation.divisor != 0
    && r.explanation.coef * r.x == r.explanation.rhs
    && r.explanation.rhs == r.explanation.divisor * r.x
  }

  /** `generate_find_x_question`. Level 1: `a × x = b` or `x × a = b`.
      Level 2: a drawn `x` of 0 becomes 2, the coefficient may be negated,
      and one of `a·x + c`, `a·x - c`, `c + a·x`, `c - a·x` equals `b`.
      Any other level: a drawn `x` of 0 becomes 5, the first two shapes
      only, with the sign shown before `|c|` chosen from the sign of `c`. */
  function GenerateFindX(level: int, d: FindXDraws): (r: FindX)
    requires FindXDrawsOk(level, d)
    ensures WellFormed(r)
    ensures level == 1 ==> 2 <= r.x <= 20
    ensures level == 2 ==> -10 <= r.x <= 10
    ensures level != 1 && level != 2 ==> -20 <= r.x <= 20
  {
    if level == 1 then FindXLevel1(d)
    else if level == 2 then FindXLevel2(d)
    else FindXLevel3(d)
  }

  function FindXLevel1(d: FindXDraws): (r: FindX)
    requires 2 <= d.a <= 20 && 2 <= d.x <= 20
    ensures WellFormed(r) && r.x == d.x
  {
    var a, x := d.a, d.x;
    var b := a * x;
    var e := if d.flip then CoefFirst(a, b) else CoefLast(a, b);
    FindX(e, x, Explanation(a, b, a), Abs(a))
  }

  function FindXLevel2(d: FindXDraws): (r: FindX)
    requires -10 <= d.x <= 10 && 2 <= d.a <= 10 && 0 <= d.c <= 9 && 1 <= d.shape <= 4
    ensures WellFormed(r) && -10 <= r.x <= 10
  {
    var x := if d.x == 0 then 2 else d.x;
    var a := if d.flip then -d.a else d.a;
    var c := d.c;
    if d.shape == 1 then
      var b := a * x + c;
      FindX(CoefThenConst(a, Plus, c, b), x, Explanation(a, b - c, a), Abs(a))
    else if d.shape == 2 then
      var b := a * x - c;
      FindX(CoefThenConst(a, Minus, c, b), x, Explanation(a, b + c, a), Abs(a))
    else if d.shape == 3 then
      var b := c + a * x;
      FindX(ConstThenCoef(c, Plus, a, b), x, Explanation(a, b - c, a), Abs(a))
    else
      var b := c - a * x;
      assert (-a) * x == -(a * x);
      FindX(ConstThenCoef(c, Minus, a, b), x, Explanation(-a, b - c, -a), Abs(a))
  }

  function FindXLevel3(d: FindXDraws): (r: FindX)
    requires -20 <= d.x <= 20 && 2 <= d.a <= 20 && 10 <= d.c <= 999 && 1 <= d.shape <= 2
    ensures WellFormed(r) && -20 <= r.x <= 20
  {
    var x := if d.x == 0 then 5 else d.x;
    var a := if d.flip then -d.a else d.a;
    var c := d.c;
    if d.shape == 1 then
      var b := a * x + c;
      var s := if c >= 0 then Plus else Minus;
      FindX(CoefThenConst(a, s, Abs(c), b), x, Explanation(a, b - c, a), Abs(a))
    else
      var b := a * x - c;
      var s := if c >= 0 then Minus else Plus;
      FindX(CoefThenConst(a, s, Abs(c), b), x, Explanation(a, b + c, a), Abs(a))
  }

  /** The left-hand side is the coefficient times `x` plus a constant. */
  lemma LhsAffine(e: Equation, x: int)
    ensures Lhs(e, x) == Coefficient(e) * x + Lhs(e, 0)
  {
  }

  /** The returned `x` is the only solution of the rendered equation. */
  lemma FindXUnique(level: int, d: FindXDraws, y: int)
    requires FindXDrawsOk(level, d)
    ensures Solves(GenerateFindX(level, d).equation, y) <==> y == GenerateFindX(level, d).x
  {
    var r := GenerateFindX(level, d);
    var e := r.equation;
    var k := Coefficient(e);
    LhsAffine(e, y);
    LhsAffine(e, r.x);
    if Solves(e, y) {
      assert k * y == k * r.x;
      assert k * (y - r.x) == 0;
      assert k != 0;
      ZeroProduct(k, y - r.x);
    }
  }

  /** The quotient the explanation ends with is exact and equals `x`. */
  lemma ExplanationQuotient(level: int, d: FindXDraws)
    requires FindXDrawsOk(level, d)
    ensures var r := GenerateFindX(level, d);
            r.explanation.rhs % r.explanation.divisor == 0 &&
            r.explanation.rhs / r.explanation.divisor == r.x
  {
    var r := GenerateFindX(level, d);
    DivExact(r.explanation.rhs, r.explanation.divisor, r.x);
  }
}

=== FILE: scenarios.dfy ===
/** Runs of one quiz session on a fresh database, showing how a question is
    resolved when the answer and the timer meet. The user is 1, the first
    question is 6 × 7 at level 1 with a 15-second limit, asked at time 0. */
module Scenarios {
  import opened Wrappers
  import opened Decimal
  import opened Evaluator
  import opened Questions
  import opened Store
  import opened Session

  const Limits: map<LimitKey, int> := map[LevelLimit(1) := 15, FindXLimit(1) := 30]

  const SixBySeven: Draws := Draws(6, 7, FindXDraws(2, 2, false, 0, 1))

  /** A fresh database where user 1 has just started the bot. */
  method NewStore() returns (store: Store)
    ensures fresh(store)
    ensures store.Valid() && 1 in store.users && store.weakSpots == map[] && store.history == []
  {
    store := new Store();
    var profile := store.GetOrCreateUser(1, 0);
  }

  /** A fresh database and a session of user 1 in `mode` at level 1, with the
      usual limits. */
  method Fresh(mode: Mode) returns (store: Store, s: QuizSession)
    requires mode != Drill
    ensures fresh(store) && fresh(s)
    ensures s.Valid() && s.AtMostOnce() && s.store == store && s.user == 1 && s.limits == Limits
    ensures s.mode == mode && s.level == 1 && s.pinned == None && s.activeTimers == {}
    ensures s.phase == Ready && s.consecutiveTimeouts == 0 && store.history == [] && s.expiredAt == None
  {
    store, s := FreshWith(mode, Limits);
  }

  /** A fresh database and a session of user 1 in `mode` at level 1. */
  method FreshWith(mode: Mode, limits: map<LimitKey, int>) returns (store: Store, s: QuizSession)
    requires mode != Drill
    ensures fresh(store) && fresh(s)
    ensures s.Valid() && s.AtMostOnce() && s.store == store && s.user == 1 && s.limits == limits
    ensures s.mode == mode && s.level == 1 && s.pinned == None && s.activeTimers == {}
    ensures s.phase == Ready && s.consecutiveTimeouts == 0 && store.history == [] && s.expiredAt == None
  {
    store := NewStore();
    s := new QuizSession(store, 1, limits, mode, 1, None, []);
  }

  lemma ReadFortyTwo()
    ensures ParseInt("42") == Some(42)
  {
    StripFixed("42");
    assert AllDigits("42");
    assert DigitsValue("42") == DigitsValue("4") * 10 + 2;
  }

  lemma ReadLetters()
    ensures ParseInt("abc") == None
  {
    StripFixed("abc");
  }

  /** A fresh session in random mode that has just asked 6 × 7 at 0, with
      its 15-second timer armed. */
  method AskSixBySeven() returns (store: Store, s: QuizSession, t: Timer)
    ensures fresh(store) && fresh(s)
    ensures s.Valid() && s.AtMostOnce() && s.store == store && s.user == 1 && s.limits == Limits
    ensures s.mode == Random && s.level == 1 && s.phase == WaitingAnswer && s.activeTimers == {0}
    ensures s.question.start == 0 && s.question.correct == 42 && s.question.limit == 15
    ensures s.expiredAt == None && s.resolutions == 0 && s.consecutiveTimeouts == 0 && store.history == []
    ensures t == Timer(0, 15)
  {
    store, s := Fresh(Random);
    var issued := s.Issue(0, SixBySeven);
    assert issued.question.correct == 42;
    t := issued.timer.value;
  }

  /** The answer comes first: it is judged right and logged, and the timer
      then finds itself disarmed. One resolution. */
  method AnswerBeforeTimer() returns (reply: Reply, expiry: Expiry, records: nat)
    ensures reply.Resolved? && reply.verdict == Correct
    ensures expiry == Stale
    ensures records == 1
  {
    var store, s, t := AskSixBySeven();
    ReadFortyTwo();
    reply := s.Answer(Text("42"), 3, 0);
    expiry := s.Timeout(t, 15, 0);
    records := |store.history|;
  }

  /** The timer comes first: the question is logged as missed, and the
      answer that follows is refused as late. One resolution. */
  method TimerBeforeAnswer() returns (expiry: Expiry, reply: Reply, records: nat)
    ensures expiry == TimedOut
    ensures reply == Late
    ensures records == 1
  {
    var store, s, t := AskSixBySeven();
    expiry := s.Timeout(t, 15, 0);
    reply := s.Answer(Text("42"), 16, 0);
    records := |store.history|;
  }

  /** An answer after the limit but before the timer has run: the corrected
      handler refuses it and leaves the timer armed, and the timer then
      resolves the question. One resolution. */
  method LateAnswerThenTimer() returns (reply: Reply, expiry: Expiry, records: nat)
    ensures reply == Late
    ensures expiry == TimedOut
    ensures records == 1
  {
    var store, s, t := AskSixBySeven();
    reply := s.Answer(Text("42"), 16, 0);
    expiry := s.Timeout(t, 16, 0);
    records := |store.history|;
  }

  /** The same run with the handler as written: it disarms the timer before
      refusing the late answer, the timer then does nothing, and the
      question is never resolved while the session keeps waiting for it. */
  method LateAnswerThenTimerAsWritten() returns (reply: Reply, expiry: Expiry, records: nat, waiting: bool)
    ensures reply == Late
    ensures expiry == Stale
    ensures records == 0
    ensures waiting
  {
    var store, s, t := AskSixBySeven();
    reply := s.AnswerAsWritten(Text("42"), 16, 0);
    expiry := s.Timeout(t, 16, 0);
    records := |store.history|;
    waiting := s.phase == WaitingAnswer;
  }

  /** A reply that is not a number, with the handler as written: it disarms
      the timer and asks for a number; if no other answer comes, the
      question is never resolved. */
  method NotANumberAsWritten() returns (reply: Reply, expiry: Expiry, records: nat, waiting: bool)
    ensures reply == NotANumber
    ensures expiry == Stale
    ensures records == 0
    ensures waiting
  {
    var store, s, t := AskSixBySeven();
    ReadLetters();
    reply := s.AnswerAsWritten(Text("abc"), 3, 0);
    expiry := s.Timeout(t, 15, 0);
    records := |store.history|;
    waiting := s.phase == WaitingAnswer;
  }

  const TwoXIsSix: Draws := Draws(0, 0, FindXDraws(3, 2, true, 0, 1))

  lemma ReadThree()
    ensures ParseInt("3") == Some(3)
  {
    StripFixed("3");
    assert AllDigits("3");
  }

  /** A fresh session in "find x" mode under `limits` that has just asked
      2 × x = 6 at 0, with its timer armed. */
  method AskTwoXIsSix(limits: map<LimitKey, int>) returns (store: Store, s: QuizSession, t: Timer)
    requires FindXLimit(1) in limits
    ensures fresh(store) && fresh(s)
    ensures s.Valid() && s.AtMostOnce() && s.store == store && s.user == 1 && s.limits == limits
    ensures s.mode == SolveForX && s.level == 1 && s.phase == WaitingAnswer && s.activeTimers == {0}
    ensures s.question.start == 0 && s.question.correct == 3 && s.question.limit == limits[FindXLimit(1)]
    ensures s.expiredAt == None && s.resolutions == 0 && s.consecutiveTimeouts == 0 && store.history == []
    ensures t == Timer(0, limits[FindXLimit(1)])
  {
    store, s := FreshWith(SolveForX, limits);
    var issued := s.Issue(0, TwoXIsSix);
    assert issued.question.correct == 3;
    t := issued.timer.value;
  }

  /** A "find x" question at level 1 (2 × x = 6, 30 seconds) answered
      right after 20 seconds, with the handler as written: it measures the
      time against the 15 seconds of level-1 products, refuses the answer,
      and has already disarmed the timer, so nothing is ever logged. */
  method FindXAfterTwentySecondsAsWritten() returns (reply: Reply, expiry: Expiry, records: nat)
    ensures reply == Late && expiry == Stale && records == 0
  {
    var store, s, t := AskTwoXIsSix(Limits);
    reply := s.AnswerAsWritten(Text("3"), 20, 0);
    expiry := s.Timeout(t, 30, 0);
    records := |store.history|;
  }

  /** The same answer with the corrected handler: judged right and logged
      once; the timer then does nothing. */
  method FindXAfterTwentySeconds() returns (reply: Reply, expiry: Expiry, records: nat)
    ensures reply.Resolved? && reply.verdict == Correct && expiry == Stale && records == 1
  {
    var store, s, t := AskTwoXIsSix(Limits);
    ReadThree();
    reply := s.Answer(Text("3"), 20, 0);
    expiry := s.Timeout(t, 30, 0);
    records := |store.history|;
  }

  /** Limits where level-1 equations get less time than level-1 products. */
  const ShortFindX: map<LimitKey, int> := map[LevelLimit(1) := 15, FindXLimit(1) := 10]

  /** With 10 seconds for 2 × x = 6 and 15 for level-1 products: the
      equation is asked at 0 and its timer runs out at 10, counting it as
      missed once. */
  method EquationMissed() returns (store: Store, s: QuizSession, expiry: Expiry)
    ensures fresh(store) && fresh(s)
    ensures expiry == TimedOut
    ensures s.Valid() && s.store == store && s.user == 1 && s.limits == ShortFindX
    ensures s.mode == SolveForX && s.level == 1 && s.phase == WaitingAnswer && s.activeTimers == {}
    ensures s.question.start == 0 && s.question.correct == 3 && s.expiredAt == Some(10)
    ensures |store.history| == 1
  {
    var t;
    store, s, t := AskTwoXIsSix(ShortFindX);
    expiry := s.Timeout(t, 10, 0);
  }

  /** The handler as written, after the timeout: an answer at 11, within
      the 15 seconds it checks and before the timer's two-second pause ends
      with the next question, is judged as well, and the question is
      counted twice. */
  method FindXAnswerAfterTimerAsWritten() returns (expiry: Expiry, reply: Reply, records: nat)
    ensures expiry == TimedOut && reply.Resolved? && records == 2
  {
    var store, s;
    store, s, expiry := EquationMissed();
    assert LateLimitAsWritten(SolveForX, 1, ShortFindX) == 15;
    ReadThree();
    reply := s.AnswerAsWritten(Text("3"), 11, 0);
    records := |store.history|;
  }

  /** The same run with the corrected handler: the answer after the
      timeout is refused as late, and the question is counted once. */
  method FindXAnswerAfterTimer() returns (expiry: Expiry, reply: Reply, records: nat)
    ensures expiry == TimedOut && reply == Late && records == 1
  {
    var store, s;
    store, s, expiry := EquationMissed();
    assert Timed(s.mode) && s.question.start !in s.activeTimers;
    reply := s.Answer(Text("3"), 11, 0);
    records := |store.history|;
  }

  /** Asks 6 × 7 at `now` and lets its timer run out. */
  method AskAndMiss(s: QuizSession, now: int) returns (expiry: Expiry)
    requires s.Valid() && s.activeTimers == {} && s.mode == Random && s.level == 1 && s.pinned == None
    requires s.limits == Limits
    modifies s, s.store
    ensures s.Valid() && s.activeTimers == {}
    ensures |s.store.history| == |old(s.store.history)| + 1
    ensures old(s.consecutiveTimeouts) < 2 ==>
      expiry == TimedOut && s.consecutiveTimeouts == old(s.consecutiveTimeouts) + 1 &&
      s.mode == Random && s.level == 1 && s.pinned == None
    ensures old(s.consecutiveTimeouts) >= 2 ==> expiry == Paused
  {
    var issued := s.Issue(now, SixBySeven);
    expiry := s.Timeout(issued.timer.value, now + 15, 0);
  }

  /** Three timeouts in a row pause the quiz and clear the session; each
      is logged. */
  method ThreeTimeoutsPause() returns (first: Expiry, second: Expiry, third: Expiry, records: nat)
    ensures first == TimedOut && second == TimedOut && third == Paused
    ensures records == 3
  {
    var store, s := Fresh(Random);
    first := AskAndMiss(s, 0);
    second := AskAndMiss(s, 17);
    third := AskAndMiss(s, 34);
    records := |store.history|;
  }
}

=== FILE: session.dfy ===
/** One chat's quiz session: issuing a question and arming its timer, the
    timer running out, and the user's answer. The session keeps the chat's
    state-machine data in fields and shares the database with the rest of
    the bot; the set of armed timer ids is a field too. Clocks and random
    draws are parameters.

    Two versions of the answer handler are modelled. `AnswerAsWritten`
    follows the bot: it disarms the question's timer before it checks the
    elapsed time or the input, so a late or unreadable reply leaves a
    question that nothing will ever resolve, and for a "find x" question it
    checks the elapsed time against the limit of the plain level. `Answer`
    is the corrected handler the rest of the model uses: it claims the timer
    only when it is going to judge the answer, and checks the limit the
    question was issued with. With it, every question is resolved at most
    once, by the timer or by the answer. */
module Session {
  import opened Wrappers
  import opened Decimal
  import opened Evaluator
  import opened Questions
  import opened Store
  import opened WeakSpots
  import opened Advisor

  // ---------------------------------------------------------------------
  // Modes and time limits

  /** The game mode, as the menus set it. */
  datatype Mode = Normal | Random | Specific | Drill | Lightning | Sniper | Training | SolveForX

  /** The mode as it is written to the history. */
  function ModeName(m: Mode): string {
    match m
    case Normal => "normal"
    case Random => "random"
    case Specific => "specific"
    case Drill => "weak_spots"
    case Lightning => "lightning"
    case Sniper => "sniper"
    case Training => "training"
    case SolveForX => "find_x"
  }

  /** Every mode but sniper and training runs a timer. */
  predicate Timed(m: Mode) {
    m != Sniper && m != Training
  }

  /** The keys of the configured time limits. */
  datatype LimitKey = LightningLimit | SniperLimit | TrainingLimit | FindXLimit(level: int) | LevelLimit(level: int)

  /** The limit a question is issued with (and its timer armed for). */
  function IssueLimitKey(mode: Mode, level: int): LimitKey {
    match mode
    case Lightning => LightningLimit
    case Sniper => SniperLimit
    case Training => TrainingLimit
    case SolveForX => FindXLimit(level)
    case _ => LevelLimit(level)
  }

  /** The limit the bot's answer handler checks: the lightning limit in
      lightning mode, the level's limit in every other timed mode, 15
      seconds when that key is not configured. */
  function LateLimitAsWritten(mode: Mode, level: int, limits: map<LimitKey, int>): int {
    var key := if mode == Lightning then LightningLimit else LevelLimit(level);
    if key in limits then limits[key] else 15
  }

  /** In every timed mode but "find x" the answer handler checks the very
      limit the timer was armed with. */
  lemma LateLimitAgrees(mode: Mode, level: int, limits: map<LimitKey, int>)
    requires Timed(mode) && mode != SolveForX && IssueLimitKey(mode, level) in limits
    ensures LateLimitAsWritten(mode, level, limits) == limits[IssueLimitKey(mode, level)]
  {
  }

  /** In "find x" mode it does not: with 30 seconds configured for level-1
      equations and 15 for level-1 products, an answer after 20 seconds is
      within the question's limit and is still refused as late. */
  lemma FindXLateCounterexample()
    ensures var limits := map[FindXLimit(1) := 30, LevelLimit(1) := 15];
      20 > LateLimitAsWritten(SolveForX, 1, limits) && 20 <= limits[IssueLimitKey(SolveForX, 1)]
  {
  }

  // ---------------------------------------------------------------------
  // Questions

  /** The question being asked: the two numbers kept for the hint and the
      weak-spot table (for "find x", the multiplier and `x`), the expected
      answer, what the history logs, and when and with which limit it was
      asked. */
  datatype Question = Question(num1: int, num2: int, correct: int, log: QuestionLog, start: int, limit: int)

  /** The random draws of one question. */
  datatype Draws = Draws(d1: int, d2: int, fx: FindXDraws)

  predicate DrawsOk(mode: Mode, level: int, pinned: Option<int>, draws: Draws) {
    if mode == SolveForX then FindXDrawsOk(level, draws.fx)
    else if mode == Drill then true
    else ProductDrawsOk(level, pinned, draws.d1, draws.d2)
  }

  /** The question `start_quiz_session` asks: the next pair of the drill
      list, a "find x" equation, or a product of the level. */
  function Ask(mode: Mode, level: int, pinned: Option<int>, drill: seq<(int, int)>, cursor: nat,
               draws: Draws, now: int, limit: int): (q: Question)
    requires DrawsOk(mode, level, pinned, draws)
    requires mode == Drill ==> cursor < |drill| && drill[cursor].0 != 0 && drill[cursor].1 != 0
    ensures q.num1 != 0 && q.num2 != 0 && q.start == now && q.limit == limit
    ensures mode == SolveForX ==>
      q.log.EquationLog? && Solves(q.log.equation, q.correct) && q.num1 >= 2 && q.num2 == q.correct
    ensures mode != SolveForX ==> q.correct == q.num1 * q.num2 && q.log == ProductLog(q.num1, q.num2)
    ensures mode == Drill ==> (q.num1, q.num2) == drill[cursor]
    ensures mode != SolveForX && mode != Drill ==> InLevelRange(level, pinned, q.num1, q.num2)
  {
    if mode == Drill then
      var (n1, n2) := drill[cursor];
      Question(n1, n2, n1 * n2, ProductLog(n1, n2), now, limit)
    else if mode == SolveForX then
      var g := GenerateFindX(level, draws.fx);
      Question(g.multiplier, g.x, g.x, EquationLog(g.equation), now, limit)
    else
      var p := GenerateQuestion(level, pinned, draws.d1, draws.d2);
      Question(p.num1, p.num2, p.correct, ProductLog(p.num1, p.num2), now, limit)
  }

  // ---------------------------------------------------------------------
  // What a resolution does to the database

  function RecordOf(user: int, mode: Mode, level: int, q: Question, answer: int, isCorrect: bool,
                    responseTime: int): AnswerRecord {
    AnswerRecord(user, q.log, answer, q.correct, isCorrect, responseTime, level, ModeName(mode))
  }

  /** A timeout: a wrong answer in the counters, one more question today,
      and a history row with answer 0 and the limit as the response time. */
  function Expired(db: Tables, user: int, mode: Mode, level: int, q: Question, limit: int, now: int, today: int): Tables {
    db.(users := RecordAnswer(db.users, user, false, now),
        activity := Bump(db.activity, user, today),
        history := db.history + [RecordOf(user, mode, level, q, 0, false, limit)])
  }

  /** A judged answer: one more question today, then what its verdict
      counts. */
  function Judged(db: Tables, user: int, mode: Mode, level: int, q: Question, answer: int, now: int, today: int): Tables {
    Counted(db.(activity := Bump(db.activity, user, today)), user, mode, level, q, answer, now)
  }

  /** What a verdict counts: when right, a right answer in the counters and
      a history row; when a typo, nothing; when wrong, a wrong answer in the
      counters, a miss on the pair unless the question was an equation, and
      a history row. */
  function Counted(db: Tables, user: int, mode: Mode, level: int, q: Question, answer: int, now: int): Tables {
    match Classify(answer, q.correct)
    case Correct =>
      db.(users := RecordAnswer(db.users, user, true, now),
          history := db.history + [RecordOf(user, mode, level, q, answer, true, now - q.start)])
    case Typo => db
    case Incorrect =>
      db.(users := RecordAnswer(db.users, user, false, now),
          weakSpots := if mode == SolveForX then db.weakSpots else TrackMiss(db.weakSpots, SpotKey(user, q.num1, q.num2), now),
          history := db.history + [RecordOf(user, mode, level, q, answer, false, now - q.start)])
  }

  /** A judged answer counts in the user's counters and in the history
      exactly when it is not a typo; a typo leaves the streak as it was.
      Right answers extend the streak, wrong ones end it, and only wrong
      answers to products are added to the weak spots. */
  lemma {:induction false} JudgedCounts(db: Tables, user: int, mode: Mode, level: int, q: Question, answer: int, now: int, today: int)
    requires UsersOk(db.users) && user in db.users
    ensures var after := Judged(db, user, mode, level, q, answer, now, today);
      var v := Classify(answer, q.correct);
      && UsersOk(after.users) && user in after.users
      && after.activity == Bump(db.activity, user, today)
      && (v == Typo <==> after.users == db.users && after.history == db.history)
      && (v == Typo ==> after.users[user].streak == db.users[user].streak)
      && (v != Typo ==> after.users[user].total == db.users[user].total + 1 &&
                        after.history == db.history + [RecordOf(user, mode, level, q, answer, v == Correct, now - q.start)])
      && (v == Correct ==> after.users[user].streak == db.users[user].streak + 1)
      && (v == Incorrect ==> after.users[user].streak == 0)
      && (after.weakSpots != db.weakSpots <==> v == Incorrect && mode != SolveForX)
  {
    RecordAnswerKeepsUsers(db.users, user, true, now);
    RecordAnswerKeepsUsers(db.users, user, false, now);
    RecordedKeepsCounters(db.users[user], true, now);
    RecordedKeepsCounters(db.users[user], false, now);
    var k := SpotKey(user, q.num1, q.num2);
    assert k in TrackMiss(db.weakSpots, k, now);
    assert TrackMiss(db.weakSpots, k, now)[k].lastError == now;
    if k in db.weakSpots {
      assert TrackMiss(db.weakSpots, k, now)[k].count != db.weakSpots[k].count;
    }
  }

  /** A timeout counts as a wrong answer: one more question, the streak
      reset, a history row with answer 0, and no weak spot. */
  lemma {:induction false} ExpiredCounts(db: Tables, user: int, mode: Mode, level: int, q: Question, limit: int, now: int, today: int)
    requires UsersOk(db.users) && user in db.users
    ensures var after := Expired(db, user, mode, level, q, limit, now, today);
      && UsersOk(after.users) && user in after.users
      && after.users[user].total == db.users[user].total + 1
      && after.users[user].wrong == db.users[user].wrong + 1
      && after.users[user].streak == 0
      && after.weakSpots == db.weakSpots
      && after.history == db.history + [AnswerRecord(user, q.log, 0, q.correct, false, limit, level, ModeName(mode))]
  {
    RecordAnswerKeepsUsers(db.users, user, false, now);
    RecordedKeepsCounters(db.users[user], false, now);
  }

  // ---------------------------------------------------------------------
  // The session

  datatype Phase = Idle | Ready | InQuiz | WaitingAnswer

  datatype Timer = Timer(id: int, limit: int)

  datatype Issued = Exhausted | Asked(question: Question, timer: Option<Timer>)

  /** A message from the user: its text, or a message without text. */
  datatype Input = Text(text: string) | NonText

  /** The reply to a message while a question waits: too late, not a
      number, the handler failed, or the answer judged (with the hint shown
      after a wrong product and the tier of the praise after a right one). */
  datatype Reply = Late | NotANumber | Crashed | Resolved(verdict: Verdict, hint: Option<Confusion>, praise: Option<Praise>)

  /** What the timer does when it runs out. */
  datatype Expiry = Stale | TimedOut | Paused

  /** The reply to an answer judged, given the tables after it. */
  function ReplyFor(after: Tables, user: int, mode: Mode, q: Question, answer: int): Reply
    requires user in after.users && q.num1 != 0 && q.num2 != 0
  {
    var v := Classify(answer, q.correct);
    Resolved(v,
             if v == Incorrect && mode != SolveForX then ConfusionHint(q.num1, q.num2, answer) else None,
             if v == Correct then Some(PraiseFor(after.users[user])) else None)
  }

  class QuizSession {
    const store: Store
    const user: int
    const limits: map<LimitKey, int>
    var mode: Mode
    var level: int
    var pinned: Option<int>
    var drill: seq<(int, int)>
    var cursor: nat
    var phase: Phase
    var question: Question
    var questionCount: nat
    var consecutiveTimeouts: nat
    /** The armed timers of the chat, by the start time of their question. */
    var activeTimers: set<int>
    /** How many times the current question has been resolved. */
    ghost var resolutions: nat
    /** When a timer last ran out and counted its question, if ever. */
    ghost var expiredAt: Option<int>

    ghost predicate Valid()
      reads this, store
    {
      && store.Valid() && user in store.users && SpotsNonZero(store.weakSpots)
      && (forall i :: 0 <= i < |drill| ==> drill[i].0 != 0 && drill[i].1 != 0)
      && (phase == WaitingAnswer ==> question.num1 != 0 && question.num2 != 0)
      && activeTimers <= (if phase == WaitingAnswer then {question.start} else {})
      && (!Timed(mode) ==> activeTimers == {})
    }

    /** The question is resolved at most once, and while it waits it is
        unresolved exactly when its timer is still armed (or it has none). */
    ghost predicate AtMostOnce()
      reads this
    {
      && resolutions <= 1
      && (phase == WaitingAnswer ==> (resolutions == 0 <==> !Timed(mode) || question.start in activeTimers))
    }

    /** The state after `state.clear()`: the defaults every handler falls
        back on. */
    predicate Cleared()
      reads this
    {
      mode == Normal && level == 1 && pinned == None && drill == [] && cursor == 0 &&
      questionCount == 0 && consecutiveTimeouts == 0 && phase == Idle
    }

    /** The session as the menus leave it before the first question: the
        mode, the level, the pinned operand and, for the weak-spot drill,
        the user's ten worst pairs. */
    constructor (store: Store, user: int, limits: map<LimitKey, int>, mode: Mode, level: int,
                 pinned: Option<int>, drill: seq<(int, int)>)
      requires store.Valid() && user in store.users && SpotsNonZero(store.weakSpots)
      requires mode == Drill ==> level == 1 && drill == Pairs(GetWeakSpots(store.weakSpots, user, 10)) && drill != []
      requires mode != Drill ==> drill == []
      ensures Valid() && AtMostOnce()
      ensures this.store == store && this.user == user && this.limits == limits
      ensures this.mode == mode && this.level == level && this.pinned == pinned && this.drill == drill
      ensures cursor == 0 && phase == Ready && questionCount == 0 && consecutiveTimeouts == 0 && activeTimers == {}
      ensures expiredAt == None
    {
      PairsNonZero(store.weakSpots, user, 10);
      this.store := store;
      this.user := user;
      this.limits := limits;
      this.mode := mode;
      this.level := level;
      this.pinned := pinned;
      this.drill := drill;
      cursor := 0;
      phase := Ready;
      question := Question(0, 0, 0, ProductLog(0, 0), 0, 0);
      questionCount := 0;
      consecutiveTimeouts := 0;
      activeTimers := {};
      resolutions := 0;
      expiredAt := None;
    }

    /** `state.clear()`. */
    method Clear()
      modifies this
      ensures Cleared()
      ensures question == old(question) && activeTimers == old(activeTimers) && resolutions == old(resolutions)
      ensures expiredAt == old(expiredAt)
    {
      mode, level, pinned, drill, cursor := Normal, 1, None, [], 0;
      questionCount, consecutiveTimeouts, phase := 0, 0, Idle;
    }

    /** `start_quiz_session`. A drill whose list is used up clears the
        session. Otherwise the next question is asked, counted and started
        at `now`; in a timed mode its timer is armed with the mode's limit. */
    method Issue(now: int, draws: Draws) returns (r: Issued)
      requires Valid() && activeTimers == {}
      requires (mode == Drill && cursor >= |drill|) || IssueLimitKey(mode, level) in limits
      requires DrawsOk(mode, level, pinned, draws)
      modifies this
      ensures Valid() && AtMostOnce() && expiredAt == old(expiredAt)
      ensures r == Exhausted <==> old(mode == Drill && cursor >= |drill|)
      ensures r == Exhausted ==> Cleared() && activeTimers == {}
      ensures r.Asked? ==>
        && mode == old(mode) && level == old(level) && pinned == old(pinned) && drill == old(drill)
        && cursor == (if mode == Drill then old(cursor) + 1 else old(cursor))
        && question == r.question
        && question == Ask(mode, level, pinned, drill, old(cursor), draws, now, limits[IssueLimitKey(mode, level)])
        && phase == WaitingAnswer && resolutions == 0
        && questionCount == old(questionCount) + 1 && consecutiveTimeouts == old(consecutiveTimeouts)
        && (Timed(mode) ==> activeTimers == {now} && r.timer == Some(Timer(now, question.limit)))
        && (!Timed(mode) ==> activeTimers == {} && r.timer == None)
    {
      resolutions := 0;
      if mode == Drill && cursor >= |drill| {
        Clear();
        return Exhausted;
      }
      r := Pose(now, draws);
    }

    /** The part of `start_quiz_session` that asks a question: it is made
        from the draws (or taken from the drill list), counted, left
        waiting, and its timer armed in a timed mode. */
    method Pose(now: int, draws: Draws) returns (r: Issued)
      requires Valid() && activeTimers == {} && resolutions == 0
      requires !(mode == Drill && cursor >= |drill|) && IssueLimitKey(mode, level) in limits
      requires DrawsOk(mode, level, pinned, draws)
      modifies this
      ensures Valid() && AtMostOnce() && expiredAt == old(expiredAt)
      ensures mode == old(mode) && level == old(level) && pinned == old(pinned) && drill == old(drill)
      ensures cursor == (if mode == Drill then old(cursor) + 1 else old(cursor))
      ensures r.Asked? && question == r.question
      ensures question == Ask(mode, level, pinned, drill, old(cursor), draws, now, limits[IssueLimitKey(mode, level)])
      ensures phase == WaitingAnswer && resolutions == 0
      ensures questionCount == old(questionCount) + 1 && consecutiveTimeouts == old(consecutiveTimeouts)
      ensures Timed(mode) ==> activeTimers == {now} && r.timer == Some(Timer(now, question.limit))
      ensures !Timed(mode) ==> activeTimers == {} && r.timer == None
    {
      var limit := limits[IssueLimitKey(mode, level)];
      question := Ask(mode, level, pinned, drill, cursor, draws, now, limit);
      if mode == Drill {
        cursor := cursor + 1;
      }
      questionCount := questionCount + 1;
      phase := WaitingAnswer;
      if Timed(mode) {
        activeTimers := {now};
        r := Asked(question, Some(Timer(now, limit)));
      } else {
        r := Asked(question, None);
      }
    }

    /** `question_timer`, once it has slept for its limit: `now` is at least
        the start of its question plus the limit. A timer no longer armed,
        or one that finds no question waiting, does nothing. Otherwise it
        disarms itself, counts the question as missed, and either leaves the
        session to ask the next question or, at the third timeout in a row,
        clears it. */
    method Timeout(t: Timer, now: int, today: int) returns (r: Expiry)
      requires Valid()
      requires phase == WaitingAnswer && t.id in activeTimers ==> t.limit == question.limit
      requires now >= t.id + t.limit
      modifies this, store
      ensures Valid()
      ensures old(AtMostOnce()) ==> AtMostOnce()
      ensures r == Stale <==> old(t.id !in activeTimers || phase != WaitingAnswer)
      ensures r == Stale ==> unchanged(this) && unchanged(store)
      ensures r != Stale ==>
        && t.id == old(question.start) && activeTimers == {}
        && resolutions == old(resolutions) + 1 && expiredAt == Some(now)
        && (old(AtMostOnce()) ==> old(resolutions) == 0)
        && store.Snapshot() == Expired(old(store.Snapshot()), user, old(mode), old(level), old(question), t.limit, now, today)
      ensures r == TimedOut ==>
        && phase == WaitingAnswer && consecutiveTimeouts == old(consecutiveTimeouts) + 1 < 3
        && mode == old(mode) && level == old(level) && pinned == old(pinned) && drill == old(drill)
        && cursor == old(cursor) && question == old(question) && questionCount == old(questionCount)
      ensures r == Paused ==> old(consecutiveTimeouts) + 1 >= 3 && Cleared()
    {
      if t.id !in activeTimers || phase != WaitingAnswer {
        return Stale;
      }
      activeTimers := activeTimers - {t.id};
      CountMissed(t.limit, now, today);
      resolutions := resolutions + 1;
      expiredAt := Some(now);
      consecutiveTimeouts := consecutiveTimeouts + 1;
      if consecutiveTimeouts >= 3 {
        Clear();
        return Paused;
      }
      return TimedOut;
    }

    /** A question the timer ran out on: counted as wrong in the user's row
        and in today's activity, and logged with the answer 0 and the limit
        as its time, as `Expired` says. */
    method CountMissed(limit: int, now: int, today: int)
      requires Valid()
      modifies store
      ensures Valid()
      ensures store.Snapshot() == Expired(old(store.Snapshot()), user, mode, level, question, limit, now, today)
    {
      store.UpdateUserStats(user, false, now);
      store.UpdateActivityCalendar(user, today);
      store.SaveAnswerHistory(RecordOf(user, mode, level, question, 0, false, limit));
    }

    /** A right answer: counted in the user's row and logged; the praise
        is read from the updated row. */
    method CountRight(answer: int, now: int) returns (praise: Praise)
      requires Valid() && phase == WaitingAnswer
      modifies store
      ensures Valid()
      ensures var db := old(store.Snapshot());
        store.Snapshot() == db.(users := RecordAnswer(db.users, user, true, now),
                                history := db.history + [RecordOf(user, mode, level, question, answer, true, now - question.start)])
      ensures praise == PraiseFor(store.users[user])
    {
      store.UpdateUserStats(user, true, now);
      store.SaveAnswerHistory(RecordOf(user, mode, level, question, answer, true, now - question.start));
      praise := PraiseFor(store.users[user]);
    }

    /** A wrong answer: counted in the user's row, the pair recorded as a
        weak spot unless the question was an equation, the answer logged,
        and the hint worked out for a product. */
    method CountWrong(answer: int, now: int) returns (hint: Option<Confusion>)
      requires Valid() && phase == WaitingAnswer
      modifies store
      ensures Valid()
      ensures var db := old(store.Snapshot());
        store.Snapshot() == db.(users := RecordAnswer(db.users, user, false, now),
                                weakSpots := if mode == SolveForX then db.weakSpots
                                             else TrackMiss(db.weakSpots, SpotKey(user, question.num1, question.num2), now),
                                history := db.history + [RecordOf(user, mode, level, question, answer, false, now - question.start)])
      ensures hint == if mode == SolveForX then None else ConfusionHint(question.num1, question.num2, answer)
    {
      store.UpdateUserStats(user, false, now);
      hint := None;
      if mode != SolveForX {
        TrackMissNonZero(store.weakSpots, SpotKey(user, question.num1, question.num2), now);
        store.TrackWeakSpot(user, question.num1, question.num2, now);
        hint := ConfusionHint(question.num1, question.num2, answer);
      }
      store.SaveAnswerHistory(RecordOf(user, mode, level, question, answer, false, now - question.start));
    }

    /** Judges `answer` to the waiting question, whose timer is no longer
        armed: the database changes as `Judged` says and the session moves
        on to the "next / finish" menu. */
    method Resolve(answer: int, now: int, today: int) returns (r: Reply)
      requires Valid() && phase == WaitingAnswer && activeTimers == {}
      modifies this, store
      ensures mode == old(mode) && level == old(level) && pinned == old(pinned) && drill == old(drill)
      ensures cursor == old(cursor) && question == old(question) && questionCount == old(questionCount)
      ensures consecutiveTimeouts == old(consecutiveTimeouts) && expiredAt == old(expiredAt)
      ensures Valid()
      ensures phase == InQuiz && activeTimers == {} && resolutions == old(resolutions) + 1
      ensures store.Snapshot() == Judged(old(store.Snapshot()), user, mode, level, question, answer, now, today)
      ensures r == ReplyFor(store.Snapshot(), user, mode, question, answer)
    {
      store.UpdateActivityCalendar(user, today);
      r := Settle(answer, now);
      phase := InQuiz;
      resolutions := resolutions + 1;
    }

    /** The verdict on `answer` and what it counts in the database, as
        `Counted` says. */
    method Settle(answer: int, now: int) returns (r: Reply)
      requires Valid() && phase == WaitingAnswer
      modifies store
      ensures Valid()
      ensures store.Snapshot() == Counted(old(store.Snapshot()), user, mode, level, question, answer, now)
      ensures r == ReplyFor(store.Snapshot(), user, mode, question, answer)
    {
      var v := Judge(answer, question.correct);
      if v == Correct {
        var praise := CountRight(answer, now);
        r := Resolved(v, None, Some(praise));
      } else if v == Typo {
        r := Resolved(v, None, None);
      } else {
        var hint := CountWrong(answer, now);
        r := Resolved(v, hint, None);
      }
    }

    /** `process_answer` as the bot has it. It resets the timeout count and
        disarms the question's timer first; then it refuses an answer that
        took longer than `LateLimitAsWritten`, fails on a message without
        text, asks again for a text that is not a number, and otherwise
        judges the answer. Whatever the reply, the timer is gone, so after
        any reply but a judged answer the question can no longer time out.
        A message handled after a timer ran out arrives strictly later than
        that timer's run; times are whole seconds, so this is stated. */
    method AnswerAsWritten(input: Input, now: int, today: int) returns (r: Reply)
      requires Valid() && phase == WaitingAnswer
      requires expiredAt.Some? ==> now > expiredAt.value
      modifies this, store
      ensures mode == old(mode) && level == old(level) && question == old(question) && expiredAt == old(expiredAt)
      ensures pinned == old(pinned) && drill == old(drill) && cursor == old(cursor) && questionCount == old(questionCount)
      ensures Valid()
      ensures consecutiveTimeouts == 0 && activeTimers == {}
      ensures r == Late <==> old(Timed(mode)) && now - old(question.start) > LateLimitAsWritten(old(mode), old(level), limits)
      ensures r == Crashed <==> r != Late && input.NonText?
      ensures r == NotANumber <==> r != Late && input.Text? && ParseInt(input.text).None?
      ensures !r.Resolved? ==> phase == WaitingAnswer && resolutions == old(resolutions) && unchanged(store)
      ensures r.Resolved? ==>
        && input.Text? && ParseInt(input.text).Some?
        && phase == InQuiz && resolutions == old(resolutions) + 1
        && store.Snapshot() == Judged(old(store.Snapshot()), user, mode, level, question, ParseInt(input.text).value, now, today)
        && r == ReplyFor(store.Snapshot(), user, mode, question, ParseInt(input.text).value)
    {
      consecutiveTimeouts := 0;
      activeTimers := activeTimers - {question.start};
      if Timed(mode) && now - question.start > LateLimitAsWritten(mode, level, limits) {
        return Late;
      }
      if input.NonText? {
        return Crashed;
      }
      var parsed := ParseInt(input.text);
      if parsed.None? {
        return NotANumber;
      }
      r := Resolve(parsed.value, now, today);
    }

    /** The answer handler with the timer claimed last. In a timed mode an
        answer is late when the question's timer is no longer armed (the
        timeout has resolved it) or when more time has passed than the
        question was issued with; a late answer, a message without text and
        a text that is not a number leave the question waiting with its
        timer armed. Only an answer that will be judged disarms the timer. */
    method Answer(input: Input, now: int, today: int) returns (r: Reply)
      requires Valid() && phase == WaitingAnswer
      modifies this, store
      ensures mode == old(mode) && level == old(level) && question == old(question) && expiredAt == old(expiredAt)
      ensures pinned == old(pinned) && drill == old(drill) && cursor == old(cursor) && questionCount == old(questionCount)
      ensures Valid()
      ensures old(AtMostOnce()) ==> AtMostOnce()
      ensures consecutiveTimeouts == 0
      ensures r != Crashed
      ensures r == Late <==>
        old(Timed(mode) && (question.start !in activeTimers || now - question.start > question.limit))
      ensures r.Resolved? <==> r != Late && input.Text? && ParseInt(input.text).Some?
      ensures !r.Resolved? ==>
        phase == WaitingAnswer && activeTimers == old(activeTimers) && resolutions == old(resolutions) && unchanged(store)
      ensures r.Resolved? ==>
        && phase == InQuiz && activeTimers == {} && resolutions == old(resolutions) + 1
        && (old(AtMostOnce()) ==> old(resolutions) == 0)
        && store.Snapshot() == Judged(old(store.Snapshot()), user, mode, level, question, ParseInt(input.text).value, now, today)
        && r == ReplyFor(store.Snapshot(), user, mode, question, ParseInt(input.text).value)
    {
      consecutiveTimeouts := 0;
      if Timed(mode) && (question.start !in activeTimers || now - question.start > question.limit) {
        return Late;
      }
      if input.NonText? {
        return NotANumber;
      }
      var parsed := ParseInt(input.text);
      if parsed.None? {
        return NotANumber;
      }
      r := Claim(parsed.value, now, today);
    }

    /** Disarms the waiting question's timer and judges `answer`; when the
        timer was still armed, this is the question's one resolution. */
    method Claim(answer: int, now: int, today: int) returns (r: Reply)
      requires Valid() && phase == WaitingAnswer
      modifies this, store
      ensures mode == old(mode) && level == old(level) && question == old(question) && expiredAt == old(expiredAt)
      ensures pinned == old(pinned) && drill == old(drill) && cursor == old(cursor) && questionCount == old(questionCount)
      ensures consecutiveTimeouts == old(consecutiveTimeouts)
      ensures Valid()
      ensures old(AtMostOnce() && (Timed(mode) ==> question.start in activeTimers)) ==> AtMostOnce() && old(resolutions) == 0
      ensures phase == InQuiz && activeTimers == {} && resolutions == old(resolutions) + 1
      ensures store.Snapshot() == Judged(old(store.Snapshot()), user, mode, level, question, answer, now, today)
      ensures r == ReplyFor(store.Snapshot(), user, mode, question, answer)
    {
      activeTimers := activeTimers - {question.start};
      r := Resolve(answer, now, today);
    }
  }
}

=== FILE: store.dfy ===
/** The bot's tables, held in memory: user counters, the weak-spot table,
    the activity calendar and the answer history. Each UPDATE or UPSERT of
    the bot is a map update here, specified by a function on the old table. */
module Store {
  import opened Questions

  // ---------------------------------------------------------------------
  // User counters

  /** The counters of one `users` row, with the time of the last answer. */
  datatype Profile = Profile(total: nat, correct: nat, wrong: nat, streak: nat, best: nat, lastActivity: int)

  /** The counters every row keeps consistent: each answer is right or
      wrong, and the running streak is at most the best streak, which is at
      most the number of right answers. */
  predicate ProfileOk(p: Profile) {
    p.correct + p.wrong == p.total && p.streak <= p.best <= p.correct
  }

  /** A new row: every counter at zero. */
  function NewProfile(now: int): (p: Profile)
    ensures ProfileOk(p) && p.total == 0
  {
    Profile(0, 0, 0, 0, 0, now)
  }

  /** `update_user_stats` on one row. A right answer adds one to the total,
      the right answers and the streak, then raises the best streak to the
      streak if it is higher; a wrong answer adds one to the total and the
      wrong answers and resets the streak. */
  function Recorded(p: Profile, isCorrect: bool, now: int): (q: Profile)
  {
    if isCorrect then
      var streak := p.streak + 1;
      Profile(p.total + 1, p.correct + 1, p.wrong, streak, if streak > p.best then streak else p.best, now)
    else
      Profile(p.total + 1, p.correct, p.wrong + 1, 0, p.best, now)
  }

  /** Recording an answer keeps the counters consistent, counts it once in
      the total, and moves the streaks as the bot promises: up by one and
      the best never lower after a right answer; zero and the best unchanged
      after a wrong one. */
  lemma RecordedKeepsCounters(p: Profile, isCorrect: bool, now: int)
    requires ProfileOk(p)
    ensures var q := Recorded(p, isCorrect, now);
      && ProfileOk(q)
      && q.total == p.total + 1
      && (isCorrect ==> q.correct == p.correct + 1 && q.wrong == p.wrong &&
                        q.streak == p.streak + 1 && q.best >= p.best && q.best >= q.streak &&
                        (q.best == p.best || q.best == q.streak))
      && (!isCorrect ==> q.wrong == p.wrong + 1 && q.correct == p.correct &&
                         q.streak == 0 && q.best == p.best)
  {
  }

  /** `update_user_stats` on the table: an UPDATE by user id, which changes
      nothing when the user has no row. */
  function RecordAnswer(users: map<int, Profile>, user: int, isCorrect: bool, now: int): map<int, Profile>
  {
    if user in users then users[user := Recorded(users[user], isCorrect, now)] else users
  }

  predicate UsersOk(users: map<int, Profile>) {
    forall u :: u in users ==> ProfileOk(users[u])
  }

  /** Every row stays consistent and only the answering user's row moves. */
  lemma RecordAnswerKeepsUsers(users: map<int, Profile>, user: int, isCorrect: bool, now: int)
    requires UsersOk(users)
    ensures UsersOk(RecordAnswer(users, user, isCorrect, now))
    ensures RecordAnswer(users, user, isCorrect, now).Keys == users.Keys
    ensures forall u :: u in users && u != user ==> RecordAnswer(users, user, isCorrect, now)[u] == users[u]
  {
    if user in users {
      RecordedKeepsCounters(users[user], isCorrect, now);
    }
  }

  // ---------------------------------------------------------------------
  // Weak spots

  /** The key of the `weak_spots` table: the user and the operands in the
      order they were asked, so 6 × 7 and 7 × 6 are different spots. */
  datatype SpotKey = SpotKey(user: int, num1: int, num2: int)

  datatype Spot = Spot(count: nat, lastError: int)

  /** `track_weak_spot`: insert the pair with count 1, or add one to its
      count; in both cases the time of the last error becomes `now`. */
  function TrackMiss(spots: map<SpotKey, Spot>, k: SpotKey, now: int): map<SpotKey, Spot>
  {
    spots[k := Spot(if k in spots then spots[k].count + 1 else 1, now)]
  }

  /** Recording a miss touches the missed pair and no other key. */
  lemma TrackMissFrame(spots: map<SpotKey, Spot>, k: SpotKey, now: int)
    ensures TrackMiss(spots, k, now).Keys == spots.Keys + {k}
    ensures forall j :: j in spots && j != k ==> TrackMiss(spots, k, now)[j] == spots[j]
  {
  }

  /** `track_weak_spot` called once per time in `times`. */
  function TrackMisses(spots: map<SpotKey, Spot>, k: SpotKey, times: seq<int>): map<SpotKey, Spot>
    decreases |times|
  {
    if |times| == 0 then spots
    else TrackMiss(TrackMisses(spots, k, times[..|times| - 1]), k, times[|times| - 1])
  }

  /** After n misses on a pair it had not missed before, its count is n and
      its last error is the last miss; the swapped pair is untouched. */
  lemma {:induction false} TrackMissesCount(spots: map<SpotKey, Spot>, k: SpotKey, times: seq<int>)
    requires k !in spots && |times| > 0
    ensures var r := TrackMisses(spots, k, times);
      k in r && r[k] == Spot(|times|, times[|times| - 1])
    ensures var swapped := SpotKey(k.user, k.num2, k.num1);
      swapped != k ==> (swapped in TrackMisses(spots, k, times) <==> swapped in spots) &&
                       (swapped in spots ==> TrackMisses(spots, k, times)[swapped] == spots[swapped])
    decreases |times|
  {
    if |times| > 1 {
      TrackMissesCount(spots, k, times[..|times| - 1]);
    }
  }

  // ---------------------------------------------------------------------
  // Activity calendar

  /** `update_activity_calendar`: the (user, date) row is inserted with 1,
      or its count goes up by one. */
  function Bump(calendar: map<(int, int), nat>, user: int, date: int): map<(int, int), nat>
  {
    calendar[(user, date) := if (user, date) in calendar then calendar[(user, date)] + 1 else 1]
  }

  /** `update_activity_calendar` called `n` times on one date. */
  function BumpTimes(calendar: map<(int, int), nat>, user: int, date: int, n: nat): map<(int, int), nat>
  {
    if n == 0 then calendar else Bump(BumpTimes(calendar, user, date, n - 1), user, date)
  }

  /** The calendar counts the questions of a day: n updates on a date
      leave n more on it, and leave the other days alone. */
  lemma {:induction false} BumpTimesCount(calendar: map<(int, int), nat>, user: int, date: int, n: nat)
    ensures var r := BumpTimes(calendar, user, date, n);
      n > 0 ==> (user, date) in r &&
                r[(user, date)] == (if (user, date) in calendar then calendar[(user, date)] else 0) + n
    ensures var r := BumpTimes(calendar, user, date, n);
      forall k :: k in calendar && k != (user, date) ==> k in r && r[k] == calendar[k]
  {
    if n > 0 {
      BumpTimesCount(calendar, user, date, n - 1);
    }
  }

  // ---------------------------------------------------------------------
  // Answer history

  /** What a question was, as the history records it: the product asked,
      or the equation of a "find x" question. */
  datatype QuestionLog = ProductLog(num1: int, num2: int) | EquationLog(equation: Equation)

  /** One `answer_history` row. The `question_type` column, which the bot
      always fills with "standard", is not kept. */
  datatype AnswerRecord = AnswerRecord(
    user: int, question: QuestionLog, userAnswer: int, correctAnswer: int,
    isCorrect: bool, responseTime: int, level: int, mode: string)

  /** All tables at once. */
  datatype Tables = Tables(
    users: map<int, Profile>, weakSpots: map<SpotKey, Spot>,
    activity: map<(int, int), nat>, history: seq<AnswerRecord>)

  /** The database: one field per table; each method is one statement of
      the bot's SQL and changes only its own table. */
  class Store {
    var users: map<int, Profile>
    var weakSpots: map<SpotKey, Spot>
    var activity: map<(int, int), nat>
    var history: seq<AnswerRecord>

    ghost predicate Valid()
      reads this
    {
      UsersOk(users)
    }

    function Snapshot(): Tables
      reads this
    {
      Tables(users, weakSpots, activity, history)
    }

    constructor ()
      ensures Valid() && Snapshot() == Tables(map[], map[], map[], [])
    {
      users, weakSpots, activity, history := map[], map[], map[], [];
    }

    /** `get_or_create_user`: a user without a row gets one with every
        counter at zero. */
    method GetOrCreateUser(user: int, now: int) returns (p: Profile)
      requires Valid()
      modifies this
      ensures Valid()
      ensures users == if user in old(users) then old(users) else old(users)[user := NewProfile(now)]
      ensures user in users && p == users[user]
      ensures weakSpots == old(weakSpots) && activity == old(activity) && history == old(history)
    {
      if user !in users {
        users := users[user := NewProfile(now)];
      }
      p := users[user];
    }

    /** `update_user_stats`. */
    method UpdateUserStats(user: int, isCorrect: bool, now: int)
      requires Valid()
      modifies this
      ensures Valid()
      ensures users == RecordAnswer(old(users), user, isCorrect, now)
      ensures weakSpots == old(weakSpots) && activity == old(activity) && history == old(history)
    {
      RecordAnswerKeepsUsers(users, user, isCorrect, now);
      if user in users {
        users := users[user := Recorded(users[user], isCorrect, now)];
      }
    }

    /** `track_weak_spot`. */
    method TrackWeakSpot(user: int, num1: int, num2: int, now: int)
      requires Valid()
      modifies this
      ensures Valid()
      ensures weakSpots == TrackMiss(old(weakSpots), SpotKey(user, num1, num2), now)
      ensures users == old(users) && activity == old(activity) && history == old(history)
    {
      var k := SpotKey(user, num1, num2);
      var count := if k in weakSpots then weakSpots[k].count + 1 else 1;
      weakSpots := weakSpots[k := Spot(count, now)];
    }

    /** `update_activity_calendar`, with today's date passed in. */
    method UpdateActivityCalendar(user: int, today: int)
      requires Valid()
      modifies this
      ensures Valid()
      ensures activity == Bump(old(activity), user, today)
      ensures users == old(users) && weakSpots == old(weakSpots) && history == old(history)
    {
      var key := (user, today);
      if key in activity {
        activity := activity[key := activity[key] + 1];
      } else {
        activity := activity[key := 1];
      }
    }

    /** `save_answer_history`: append one row. */
    method SaveAnswerHistory(record: AnswerRecord)
      requires Valid()
      modifies this
      ensures Valid()
      ensures history == old(history) + [record]
      ensures users == old(users) && weakSpots == old(weakSpots) && activity == old(activity)
    {
      history := history + [record];
    }
  }
}

=== FILE: weakspots.dfy ===
/** The weak-spot query: a user's rows of the weak-spot table, most errors
    first, then most recent error first, cut to a limit. The query leaves
    the order of rows equal in both keys to the database; the model breaks
    such ties by the operands, so that the ranking is one definite list. */
module WeakSpots {
  import opened Store

  /** One result row: the operands as asked, the error count and the time
      of the last error. */
  datatype Row = Row(num1: int, num2: int, count: nat, lastError: int)

  /** `a` comes before `b`: more errors, or as many errors and a later last
      error, or (the model's tie-break) smaller operands. */
  predicate Before(a: Row, b: Row) {
    || a.count > b.count
    || (a.count == b.count && a.lastError > b.lastError)
    || (a.count == b.count && a.lastError == b.lastError && a.num1 < b.num1)
    || (a.count == b.count && a.lastError == b.lastError && a.num1 == b.num1 && a.num2 < b.num2)
  }

  /** `Before` is a strict total order on rows. */
  lemma BeforeOrder(a: Row, b: Row, c: Row)
    ensures !Before(a, a)
    ensures Before(a, b) ==> !Before(b, a)
    ensures a != b ==> Before(a, b) || Before(b, a)
    ensures Before(a, b) && Before(b, c) ==> Before(a, c)
  {
  }

  /** `m` is the row of `s` that comes before all the others. */
  predicate IsFirst(m: Row, s: set<Row>) {
    m in s && forall r :: r in s && r != m ==> Before(m, r)
  }

  /** Every non-empty set of rows has a first row. */
  lemma {:induction false} HasFirst(s: set<Row>)
    requires s != {}
    ensures exists m :: IsFirst(m, s)
    decreases |s|
  {
    var x :| x in s;
    var rest := s - {x};
    if rest == {} {
      assert s == {x};
      assert IsFirst(x, s);
    } else {
      HasFirst(rest);
      var m :| IsFirst(m, rest);
      BeforeOrder(x, m, x);
      if Before(x, m) {
        forall r | r in s && r != x
          ensures Before(x, r)
        {
          BeforeOrder(x, m, r);
        }
        assert IsFirst(x, s);
      } else {
        assert IsFirst(m, s);
      }
    }
  }

  /** The rows of `s` in order: a permutation of the set, sorted by `Before`. */
  ghost function Ranked(s: set<Row>): (r: seq<Row>)
    ensures |r| == |s|
    ensures forall i :: 0 <= i < |r| ==> r[i] in s
    ensures forall x :: x in s ==> x in r
    ensures forall i, j :: 0 <= i < j < |r| ==> Before(r[i], r[j])
    decreases |s|
  {
    if s == {} then []
    else
      HasFirst(s);
      var m :| IsFirst(m, s);
      [m] + Ranked(s - {m})
  }

  /** The `WHERE user_id = ?` part: the user's rows of the table. */
  function RowsOf(table: map<SpotKey, Spot>, user: int): set<Row>
  {
    set k | k in table && k.user == user :: Row(k.num1, k.num2, table[k].count, table[k].lastError)
  }

  /** A row comes from a spot of the user, with that spot's count and time. */
  predicate FromTable(table: map<SpotKey, Spot>, user: int, x: Row) {
    var k := SpotKey(user, x.num1, x.num2);
    k in table && table[k] == Spot(x.count, x.lastError)
  }

  lemma RowsOfIff(table: map<SpotKey, Spot>, user: int, x: Row)
    ensures x in RowsOf(table, user) <==> FromTable(table, user, x)
  {
    if FromTable(table, user, x) {
      var k := SpotKey(user, x.num1, x.num2);
      assert Row(k.num1, k.num2, table[k].count, table[k].lastError) == x;
    }
  }

  function Min(a: nat, b: nat): nat {
    if a <= b then a else b
  }

  /** `get_weak_spots`: the user's first `limit` rows in ranking order. */
  ghost function GetWeakSpots(table: map<SpotKey, Spot>, user: int, limit: nat): (r: seq<Row>)
    ensures |r| == Min(limit, |RowsOf(table, user)|)
    ensures forall i :: 0 <= i < |r| ==> r[i] in RowsOf(table, user)
    ensures forall i, j :: 0 <= i < j < |r| ==>
      r[i].count > r[j].count || (r[i].count == r[j].count && r[i].lastError >= r[j].lastError)
    ensures forall i, j :: 0 <= i < j < |r| ==> Before(r[i], r[j])
  {
    var all := Ranked(RowsOf(table, user));
    all[..Min(limit, |all|)]
  }

  /** Every returned row is one of the user's spots, with its count. */
  lemma {:induction false} WeakSpotsFromTable(table: map<SpotKey, Spot>, user: int, limit: nat, i: nat)
    requires i < |GetWeakSpots(table, user, limit)|
    ensures FromTable(table, user, GetWeakSpots(table, user, limit)[i])
  {
    RowsOfIff(table, user, GetWeakSpots(table, user, limit)[i]);
  }

  /** It is the top of the ranking: a row of the user that is left out
      ranks after every returned row, so in particular it has no more
      errors than any of them. */
  lemma {:induction false} WeakSpotsTop(table: map<SpotKey, Spot>, user: int, limit: nat, x: Row)
    requires x in RowsOf(table, user) && x !in GetWeakSpots(table, user, limit)
    ensures forall i :: 0 <= i < |GetWeakSpots(table, user, limit)| ==>
      Before(GetWeakSpots(table, user, limit)[i], x) && GetWeakSpots(table, user, limit)[i].count >= x.count
  {
    var all := Ranked(RowsOf(table, user));
    var r := GetWeakSpots(table, user, limit);
    assert r == all[..|r|];
    assert forall j :: 0 <= j < |r| ==> all[j] != x;
    var k :| 0 <= k < |all| && all[k] == x;
  }

  /** The answer is empty exactly when the limit is 0 or the user has no spot. */
  lemma {:induction false} WeakSpotsEmptyIff(table: map<SpotKey, Spot>, user: int, limit: nat)
    ensures GetWeakSpots(table, user, limit) == [] <==>
      limit == 0 || forall k :: k in table ==> k.user != user
  {
    if limit > 0 && exists k :: k in table && k.user == user {
      var k :| k in table && k.user == user;
      assert Row(k.num1, k.num2, table[k].count, table[k].lastError) in RowsOf(table, user);
    }
  }

  /** The operand pairs of the rows, as the weak-spot training mode uses them. */
  function Pairs(rows: seq<Row>): (p: seq<(int, int)>)
    ensures |p| == |rows|
    ensures forall i :: 0 <= i < |rows| ==> p[i] == (rows[i].num1, rows[i].num2)
  {
    if |rows| == 0 then [] else [(rows[0].num1, rows[0].num2)] + Pairs(rows[1..])
  }

  /** No spot of the table has a zero operand. */
  predicate SpotsNonZero(table: map<SpotKey, Spot>) {
    forall k :: k in table ==> k.num1 != 0 && k.num2 != 0
  }

  /** Recording a miss on non-zero operands keeps every spot non-zero. */
  lemma TrackMissNonZero(table: map<SpotKey, Spot>, k: SpotKey, now: int)
    requires SpotsNonZero(table) && k.num1 != 0 && k.num2 != 0
    ensures SpotsNonZero(TrackMiss(table, k, now))
  {
  }

  /** The pairs of a table without zero operands have none either. */
  lemma {:induction false} PairsNonZero(table: map<SpotKey, Spot>, user: int, limit: nat)
    requires SpotsNonZero(table)
    ensures var p := Pairs(GetWeakSpots(table, user, limit));
      forall i :: 0 <= i < |p| ==> p[i].0 != 0 && p[i].1 != 0
  {
    var r := GetWeakSpots(table, user, limit);
    forall i | 0 <= i < |r|
      ensures r[i].num1 != 0 && r[i].num2 != 0
    {
      WeakSpotsFromTable(table, user, limit, i);
    }
  }
}

=== FILE: wrappers.dfy ===
/** The optional-value datatype shared by the other modules. */
module Wrappers {

  datatype Option<+T> = None | Some(value: T)
}
